=== FILE: README.md ===
# Microcosm core in Dafny

This project models the core of Microcosm, a unidirectional state container.
Application state is the fold of a history of actions through pluggable
reducers called domains. Four cooperating pieces are modelled as pure
functions over immutable records:

- **Action lifecycle** (`action.dfy`, `action_tree.dfy`). An action starts unset. While it is not `disposable`, the guarded `set` accepts any status change, in any order. Once done, error or cancelled, the action is disposable: it refuses every later status change, so it settles at most once (and need not settle at all). Each transition returns the new record and the list of events it emitted, in order. Listeners attached after settlement fire at once. The `children` accessor walks `next` and then the sibling chain over an arena of nodes indexed by id. `teardown` detaches a node.
- **Coroutine resolver** (`coroutine.dfy`). The value a behaviour returns is classified as `Deferred` (promise-like), `Manual` (a thunk) or `Immediate` (anything else). The promise branch opens the action, and settlement is a separate continuation, `Settle`. The thunk branch calls the thunk and leaves the action alone. The plain-value branch resolves at once.
- **Domains** (`domain.dfy`). `Domain.ensure` back-fills the missing contract methods with the defaults: commit always, stage returns `next`, commit is the identity, and `register` is empty. The realm is an ordered list of `(key, domain)` registrations. A sub-domain is registered under `[parentKey] ++ key`.
- **Store reconciliation** (`microcosm.dfy`). The store has five layers: archived, cached, staged, head and state. Around them sit the fold `dispatch`, the per-key commit policy `write`/`commit`, the purity-gated `release`, `rebase`, the layer copies (`archive`, `cache`, `rollback`, `checkout`), the construction of the `reset`/`patch` payloads, `deserialize`/`serialize`, and `fork`.

`values.dfy` holds the JavaScript values the container passes around. It also holds the assumptions made about helper modules that are not part of this model:

- State is `map<Key, Value>`, and a key is a path `seq<string>`, treated as one atomic key.
- `update.get`/`update.set` are map lookup and update. A missing key reads as `undefined`.
- `merge(a, b)` is a right-biased union. `merge(x, undefined)` is `x`.
- `shallowEqual` compares own keys and `===` values. Lemma `ShallowEqualIsEquality` shows this is equality of the maps.
- The realm's `register(type)` is the ordered list of registrations whose domain answers `type`. For the lifecycle identities (`getInitialState`, `serialize`, `deserialize`), a domain answers through its own method.
- The realm's `reduce` folds `write` over the registrations in order.
- The realm's `add(key, config)` runs `Domain.ensure` on the config and appends one registration under `key` after the existing ones (`Domains.Add`).

## Model

| member | source | states |
|---|---|---|
| Actions.Fresh | src/action.js:12-23 | a new action has no type, a null payload, is enabled and is not disposable |
| Actions.Set | src/action.js:48-64 | once disposable, `set` is refused and changes nothing and emits nothing; otherwise it sets type and disposability, keeps the old payload when the argument is null or undefined, and emits one `change` |
| Actions.Open | src/action.js:70-76 | accepted exactly when not disposable; the action becomes open and not disposable, takes the argument as payload unless it is null or undefined, and is otherwise unchanged; emits `change` then `open` with the stored payload; a refused call changes nothing |
| Actions.Send | src/action.js:82-88 | accepted exactly when not disposable; the action becomes loading and not disposable, takes the argument as payload unless it is null or undefined, and is otherwise unchanged; emits `change` then `update` carrying the argument |
| Actions.Reject | src/action.js:94-100 | accepted exactly when not disposable; the action becomes errored and disposable, takes the argument as payload unless it is null or undefined, and is otherwise unchanged; emits `change` then `error` carrying the argument |
| Actions.Resolve | src/action.js:106-112 | accepted exactly when not disposable; the action becomes done and disposable, takes the argument as payload unless it is null or undefined, and is otherwise unchanged; emits `change` then `done` with the stored payload |
| Actions.Cancel | src/action.js:118-124 | accepted exactly when not disposable; the action becomes cancelled and disposable, takes the argument as payload unless it is null or undefined, and is otherwise unchanged; emits `change` then `cancel` with the stored payload |
| Actions.Toggle | src/action.js:131-135 | flips `disabled` whatever the lifecycle, changes nothing else, emits `change` |
| Actions.OnError | src/action.js:142-154 | with a callback: called at once with the stored payload exactly when the action is already errored, and otherwise subscribed once to `error`; no callback is a no-op |
| Actions.OnUpdate | src/action.js:159-167 | never calls at once; subscribes to every later `update`; no callback is a no-op |
| Actions.OnDone | src/action.js:174-186 | with a callback: called at once with the stored payload exactly when the action is already done, and otherwise subscribed once to `done`; no callback is a no-op |
| Actions.OnCancel | src/action.js:193-205 | with a callback: called at once with the stored payload exactly when the action is already cancelled, and otherwise subscribed once to `cancel`; no callback is a no-op |
| Actions.ChangeThenOwnEvent | src/action.js:61-121 | every accepted transition emits `change` first and then exactly one event named after the method; refused ones emit nothing |
| Actions.ApplyKeepsWellFormed | src/action.js:48-135 | one transition keeps "disposable exactly when settled" |
| Actions.DisposableIsFrozen | src/action.js:48-135 | on a disposable action every transition but `toggle` is refused and leaves it unchanged, and `toggle` only flips `disabled` |
| Actions.SecondResolveIsNoOp | src/action.js:106-112 | a second `resolve` is refused by `set`, leaves the action as the first left it, and emits nothing |
| Actions.ToggleTwice | src/action.js:131-135 | toggling twice restores the action |
| Actions.RunAppend | src/action.js:48-135 | a sequence of calls splits into its parts: same final record, events concatenated |
| Actions.TerminalCountAppend | src/action.js:48-135 | the settlement events of concatenated event lists add up |
| Actions.TerminalCountPair | src/action.js:61-121 | the settlement events of a `change` and a method event are those of the method event |
| Actions.ApplyTerminalCount | src/action.js:94-124 | one call emits a settlement event only when the action was not disposable, and then it leaves the action disposable |
| Actions.RunKeepsWellFormed | src/action.js:48-135 | any sequence of calls keeps "disposable exactly when settled" |
| Actions.SettlesAtMostOnce | src/action.js:48-124 | over any sequence of calls at most one `done`/`error`/`cancel` is emitted, and none if already settled |
| Actions.FreshSettlesAtMostOnce | src/action.js:12-124 | a new action settles at most once over any call sequence and stays well formed |
| Actions.LateAndEarlyListenersAgree | src/action.js:106-205 | a `done` or `cancel` listener attached before settlement receives the same value as one attached after it |
| Actions.LateErrorListenerSeesStoredPayload | src/action.js:94-154 | `reject(undefined)` emits `error` with undefined, while a later `onError` is called with the previously stored payload |
| Actions.IsReportsLastTransition | src/action.js:30-32 | `is` matches the status the last accepted transition set and nothing on a fresh action; a refused call changes no answer; on a well-formed action, disposable is matching done, error or cancelled |
| Actions.ListenersConsultIs | src/action.js:142-205 | `onDone`/`onError`/`onCancel` call at once exactly when `is` reports their status |
| ActionTree.Chain | src/action.js:243-246 | the walk follows sibling links from its start and, unless its bound is reached, stops at a node whose sibling is unset |
| ActionTree.Children | src/action.js:238-250 | `children` is `next` followed by its sibling chain, linked in order; in a linked arena it is empty exactly when `next` is unset |
| ActionTree.FullWalkCoversArena | src/action.js:243-246 | a walk of as many distinct nodes as the arena holds has visited every node |
| ActionTree.RepeatMeansCycle | src/action.js:243-246 | a walk that repeats a node is in a cycle, so its next sibling is already on the walk |
| ActionTree.CycleShift | src/action.js:243-246 | two equal positions of a sibling walk stay equal as both advance |
| ActionTree.ChildrenReachChainEnd | src/action.js:238-250 | the walk ends at a node without a sibling unless the sibling chain is cyclic |
| ActionTree.Teardown | src/action.js:221-231 | clears the node's parent and sibling and its next node's parent; every other node and field is unchanged; an arena whose links all resolve still has that property |
| ActionTree.TeardownIsIdempotent | src/action.js:221-231 | tearing down an already detached node changes nothing |
| Coroutine.Classify | src/coroutine.js:1-46 | promise-like exactly when the value has a callable `then`; thunk exactly when it is a function without one; plain value otherwise |
| Coroutine.Run | src/coroutine.js:10-47 | promise: only `open` runs, so an unsettled action stays unsettled; thunk: the thunk is invoked and the action is untouched; otherwise `resolve` with the value; the same action comes back in every branch |
| Coroutine.Settle | src/coroutine.js:24-28 | fulfilment resolves with the result (kept payload if it is null or undefined) and emits `change`, `done`; rejection rejects, emitting `change` then `error` with the error; on an already settled action the continuation changes nothing and emits nothing |
| Coroutine.ThenableFunctionIsPromise | src/coroutine.js:22-43 | a function with a callable `then` takes the promise branch, and one without takes the thunk branch |
| Coroutine.FalsyValuesResolveImmediately | src/coroutine.js:1-46 | null, undefined and 0 resolve the action at once |
| Coroutine.PromiseSettlesLater | src/coroutine.js:22-31 | a new action with a promise body is open and unsettled after the resolver, and done or errored only after the continuation |
| Coroutine.RunSettlesAtMostOnce | src/coroutine.js:10-47 | the resolver emits at most one settlement event and keeps the action well formed |
| Domains.Ensure | src/domain.js:15-24 | methods already present are never overwritten; each missing one gets the prototype's default |
| Domains.AsConfig | src/domain.js:15-24 | a domain after `ensure` has every modelled prototype method present (`addDomain` aside, see below) |
| Domains.EnsureIdempotent | src/domain.js:15-24 | a second `ensure` changes nothing |
| Domains.EnsureKeepsComplete | src/domain.js:15-24 | `ensure` of an object with every method returns it unchanged |
| Domains.DefaultsOfEmptyDomain | src/domain.js:31-91 | defaults: `register` answers nothing, `shouldCommit` is always true, `stage` returns `next`, `commit` is the identity, `setup`/`teardown` do nothing |
| Domains.Register | src/microcosm.js:104-106 | the handlers for a type are at most one per registration, each drawn from a registered domain together with the handler that domain offers, and none when no domain answers |
| Domains.RegisterAppend | src/microcosm.js:104-106 | registrations' handlers come in registration order |
| Domains.Add | src/microcosm.js:268-272 | adding a domain appends the ensured domain under its key after every existing registration |
| Domains.AddSubDomain | src/domain.js:100-104 | a sub-domain is registered under `[parentKey] ++ key`, after its parent |
| Domains.SubDomainHandlersComeLast | src/domain.js:100-104 | a sub-domain's handler runs after every handler registered before it |
| Domains.DefaultDomainAddsNoHandlers | src/domain.js:50-53 | a domain with the default `register` contributes no handler for any action |
| Microcosm.New | src/microcosm.js:24-54 | a root store starts with every layer empty |
| Microcosm.Fork | src/microcosm.js:417-423 | a fork shares history and purity with its parent; its archive and cache are the parent's, its staged and head the parent's head, its state the parent's state |
| Microcosm.Dispatch | src/microcosm.js:120-133 | the result holds the input keys plus the handlers' keys; keys no handler names are unchanged; no handlers returns the input |
| Microcosm.DispatchAppend | src/microcosm.js:120-133 | dispatching a concatenation of handlers is dispatching the second part over the result of the first |
| Microcosm.HandlerSeesEarlierWrites | src/microcosm.js:123-130 | each handler reads the state left by the handlers before it and writes `stage(last, handler(last, payload))` at its key |
| Microcosm.DispatchDistinctKeys | src/microcosm.js:123-130 | with distinct keys every key ends up as its domain's staged value computed from the original state |
| Microcosm.DispatchLoop | src/microcosm.js:120-133 | the loop as written computes the fold |
| Microcosm.GetInitialState | src/microcosm.js:95-97 | the initial state holds exactly the keys of domains that answer `getInitialState`; with keys registered once each, each holds its domain's staged answer to `getInitialState(undefined)` |
| Microcosm.Archive | src/microcosm.js:139-141 | the archive becomes the cache; nothing else changes |
| Microcosm.Cache | src/microcosm.js:147-149 | the cache becomes the staged layer; nothing else changes |
| Microcosm.Rollback | src/microcosm.js:157-159 | staging restarts from the cache; nothing else changes |
| Microcosm.Checkout | src/microcosm.js:404-410 | the cache falls back to the archive; nothing else changes |
| Microcosm.CacheRollbackRoundTrip | src/microcosm.js:147-159 | cache then rollback leaves staging as it was; rollback then cache leaves the cache as it was |
| Microcosm.Stage | src/microcosm.js:165-173 | only `staged` changes; a fork first takes in its parent's head; the action is dispatched over that base: only its handlers' keys change, and (keys registered once each) each becomes its domain's staged handler result; no action on a root store changes nothing |
| Microcosm.Write | src/microcosm.js:187-197 | an unpublished key is always committed; a published key is committed only if `shouldCommit(cached, staged)` holds and otherwise keeps its published value; other keys are untouched |
| Microcosm.Reduce | src/microcosm.js:180-182 | keys no registration names keep their staged value |
| Microcosm.Commit | src/microcosm.js:180-182 | only `head` changes, and unregistered keys pass through from staged |
| Microcosm.Reconcile | src/microcosm.js:206-212 | staged is what `stage` produces, and the head passes unregistered keys through from it; only `staged` and `head` change |
| Microcosm.Release | src/microcosm.js:214-224 | a pure store with a shallow-equal head changes nothing and emits nothing; otherwise the head is published and exactly one `change` emitted |
| Microcosm.ReleaseIsIdempotentWhenPure | src/microcosm.js:214-224 | a pure store released twice emits nothing the second time |
| Microcosm.ImpureStoreAlwaysEmits | src/microcosm.js:214-224 | an impure store emits `change` on every release |
| Microcosm.ReduceAppend | src/microcosm.js:180-182 | committing over a concatenation of registrations is committing the second part over the first's result |
| Microcosm.CommitAtKey | src/microcosm.js:187-197 | with distinct keys, the head at a registered key is what that key's own write produced |
| Microcosm.CommitPerKey | src/microcosm.js:187-197 | per registered key: first write always commits; a declined published key keeps its published value; otherwise the committed staged value |
| Microcosm.DefaultPolicyCommitsStaged | src/microcosm.js:187-197 | with default `shouldCommit`/`commit` and every key staged, the head equals the staged layer |
| Microcosm.Rebase | src/microcosm.js:386-395 | archive and cache are back-filled with the initial state; staged restarts from the cache (plus the parent's head for a fork); the head passes unregistered keys through from it; then the purity-gated release |
| Microcosm.RebaseKeepsExistingValues | src/microcosm.js:386-388 | existing archived and cached values win over initial-state defaults, and keys only the defaults have are filled in |
| Microcosm.AddDomain | src/microcosm.js:268-272 | the ensured domain is registered last; archive and cache are back-filled with the enlarged realm's initial state; staged restarts from the cache (plus the parent's head for a fork) and the head passes unregistered keys through; nothing is emitted exactly when the store is pure and the new head equals the published state, otherwise the head is published with one `change` |
| Microcosm.AddDomainCommitsPerKey | src/microcosm.js:268-272 | after `addDomain`, every key of the enlarged realm is committed through its domain's policy: a never-published key always, a declined published key keeps its published value, otherwise the committed value |
| Microcosm.Deserialize | src/microcosm.js:350-356 | null or undefined gives an empty state; otherwise only keys of domains answering `deserialize` can differ from the input, and (keys registered once each) each of those holds its domain's staged `deserialize` of the input's value |
| Microcosm.Serialize | src/microcosm.js:365-367 | only keys of domains answering `serialize` can differ from the staged layer, and (keys registered once each) each of those holds its domain's staged `serialize` of the staged value |
| Microcosm.Reset | src/microcosm.js:308-317 | the pushed reset data is the initial state overlaid with the given (optionally deserialized) data, which wins on shared keys |
| Microcosm.Patch | src/microcosm.js:327-336 | the pushed patch data is the given data; when asked to deserialize, it is the data's deserialized form: absent data becomes empty, and present data changes only at keys of domains answering `deserialize` |
| Microcosm.ReconcileCommitsPerKey | src/microcosm.js:187-212 | reconcile commits what it staged key by key: a key never published is always committed, a declined published key keeps its published value, otherwise the committed value |
| Microcosm.ReconcileWithDefaultPolicy | src/microcosm.js:180-212 | with default `shouldCommit`/`commit` and every registered key staged, reconcile's head is what it staged |
| Microcosm.RebaseCommitsPerKey | src/microcosm.js:386-395 | rebase's reconcile commits each registered key through its domain's policy: a never-published key is always committed, a declined published key keeps its published value, otherwise the committed value |
| Microcosm.RebaseKeepsDeclinedValue | src/microcosm.js:386-395 | a domain whose `shouldCommit` always declines keeps its published value in the head through a rebase |
| Microcosm.RegisterAddedLast | src/microcosm.js:268-272 | a newly added domain's handler comes after every earlier handler, and no earlier handler writes its fresh key |
| Microcosm.InitialStateOfAddedDomain | src/microcosm.js:95-97 | with a realm grown by a domain under a fresh key whose `getInitialState` answers v and whose `stage` is the default, the initial state binds that key to v |
| Microcosm.NewKeyCommitsInitialValue | src/microcosm.js:268-395 | the rebase behind `addDomain` on a root store leaves v in the head at the new domain's fresh, never-published key |
| Microcosm.AddedDomainPublishesInitialValue | src/microcosm.js:268-395 | a domain added under a fresh key of a root store, with default stage/commit and `getInitialState` answering v, has v published at its key when `addDomain` returns, with one `change` emitted |
| Microcosm.DispatchOfIdentityHandlers | src/microcosm.js:120-133 | handlers that each give their key's value back leave every key's value as it was |
| Microcosm.RegisteredIdentityHooks | src/microcosm.js:104-106 | when every domain's lifecycle method gives the sub-state back, so does every handler registered for it |
| Microcosm.SerializeWithIdentityHooks | src/microcosm.js:365-367 | with serialize methods that give the sub-state back, serializing gives the staged layer, key by key |
| Microcosm.DeserializeWithIdentityHooks | src/microcosm.js:327-356 | with deserialize methods that give the sub-state back, deserializing and patching with deserialization give the data back, key by key |
| Microcosm.SerializationWithIdentityHooks | src/microcosm.js:350-367 | with identity serialize and deserialize methods, deserializing what was serialized gives the staged layer, key by key |
| Microcosm.ResetWithoutDataIsInitialState | src/microcosm.js:308-317 | a reset with absent data, or with empty data without deserialization, pushes exactly the initial state |
| Microcosm.CheckoutRestoresArchive | src/microcosm.js:404-410 | after archiving, checkout changes nothing: the cache point is where the archive was put |
| Microcosm.ForkFollowsParentHead | src/microcosm.js:417-423 | a fork with no domains of its own reconciles to its parent's head and, when pure, releases nothing over a parent that published its head |
| Microcosm.NewStoreRebasesToEmpty | src/microcosm.js:24-54 | a new store has no initial state: rebasing it keeps every layer empty, and it emits only when impure |

## Left out

- History is not part of this model: appending, checkout of the head pointer, pruning and the settlement frontier. Stores receive the action to stage as a parameter. `Checkout` models only the store's own layer copy.
- The realm's internals are not part of this model: compiling the dispatch table, constant (non-function) handlers, and the warning for an `undefined` entry. The realm is the ordered registration list described above.
- MetaDomain is not part of this model, so how a pushed reset or patch is finally applied to state is left out. So are the constructor's registration of MetaDomain and its `setup()` call. `New` and `Fork` model the layer initialisation only.
- Effects, `addEffect`/`effect`, `push`/`execute`/`prepare`/`append`, the store's `teardown`, and its `setup` hook are left out: they are plumbing around collaborators that are not modelled.
- Emitter mechanics are left out: listener lists, `once`/`off` and scope binding. Emitted events are returned as a list, and a listener registration is returned as a value.
- The Promise interop `then` on an action is host async machinery and is left out. So is the `setTimeout` deferral in the coroutine, beyond modelling the continuation as the separate `Settle`.
- The behaviour invoked by an action, and the body of a thunk, are application code. A thunk's own transitions are not modelled.
- `setup`/`teardown` hooks of a domain are recorded only as present or default (no-op). Their effects are application code.
- The `diposable` spelling of the initial field leaves `disposable` undefined at first. That is falsy, so it is modelled as `false`.
- Numbers are integers: NaN, `-0` and fractions are not modelled. `shallowEqual` is `===` on the modelled values.
- State keys are atomic paths. How `update.get`/`update.set` nest values under a parent key's object is not modelled, so writes to a parent key and to its sub-domain's key are independent here.
- `stage` merges the parent's head into `staged` by mutating it in place. It is modelled as producing the merged value, which is equivalent because `staged` is always a fresh copy at that point.
- Domains.Ensure enumerates `Domain.prototype` with `for…in`. Whether class methods are enumerable depends on how the class is compiled. The model takes the prototype's methods as the enumerated keys.
- Links are ids into an arena rather than object references. A link naming an id the arena does not hold cannot arise in the source; the model treats it like an unset link, and `Linked` states when none exist.
- ActionTree.Children: on a sibling cycle the source loop never ends. The model stops after as many nodes as the arena holds, and `ChildrenReachChainEnd` shows that this only happens on a cycle.
- Errors thrown by a domain handler are not modelled. The source calls the handler inside `dispatch` (src/microcosm.js:127), so an exception leaves `dispatch`, `stage` and `rebase` before `staged` is reassigned. The model's handlers are total functions.
- Microcosm.Write: keys are atomic paths, so a published sub-domain path `[parent, key]` or root key counts as already written, and `shouldCommit` is then consulted. In the source the state is nested, and `hasOwnProperty` on such a path never finds it (src/microcosm.js:192), so the source always commits those keys.
- Domains.Ensure: `Domain.prototype.addDomain` (src/domain.js:100-104) is one of the methods `ensure` back-fills. The domain record has no field for it; registering a sub-domain is modelled by `Domains.AddSubDomain` over the realm instead.
- Deprecated `addStore`/`replace` and their console warnings, `src/install.js`, the legacy `src/Store.js`, and the React presenter layer are outside this core.

=== FILE: action.dfy ===
/**
 The action lifecycle state machine. An action starts unset; while it is
 not disposable, `set` accepts any status change, in any order. Once done,
 errored or cancelled, the action is disposable and refuses every later
 status change, so it settles at most once (and need not settle at all). Each transition returns the new action record together with the
 events it emitted, in emission order.
 */
module Actions {
  import opened Values

  /** The lifecycle tag held in `type`: unset (`null`), open, loading, done, error, cancelled. */
  datatype Status = Unset | Opened | Loading | Done | Errored | Cancelled

  /** The three terminal statuses. */
  predicate Settled(s: Status) {
    s == Done || s == Errored || s == Cancelled
  }

  /** Node identity inside a history tree. */
  type Id = nat

  /**
   An action: the identity of its tagged behaviour, the lifecycle fields, and
   its links to other nodes of the history tree (by id).
   */
  datatype Action = Action(
    behavior: nat,
    status: Status,
    payload: Value,
    disabled: bool,
    disposable: bool,
    parent: Option<Id>,
    sibling: Option<Id>,
    next: Option<Id>)

  /** The events an action emits; each carries the value handed to its listeners. */
  datatype Event =
    | Change
    | OpenEvent(v: Value)
    | UpdateEvent(v: Value)
    | ErrorEvent(v: Value)
    | DoneEvent(v: Value)
    | CancelEvent(v: Value)

  /** The result of one transition method: was it accepted, the new record, the events emitted. */
  datatype Transition = Transition(accepted: bool, action: Action, events: seq<Event>)

  /** A freshly appended action: no type, null payload, enabled, not disposable. */
  function Fresh(behavior: nat, parent: Option<Id>): (a: Action)
    ensures a.status == Unset && a.payload == Null && !a.disabled && !a.disposable
  {
    Action(behavior, Unset, Null, false, false, parent, None, None)
  }

  /** The guarded `set`: refused once disposable; otherwise updates type and disposability, and the payload unless the argument is null or undefined. */
  function Set(a: Action, status: Status, payload: Value, disposable: bool): (t: Transition)
    ensures t.accepted <==> !a.disposable
    ensures !t.accepted ==> t.action == a && t.events == []
    ensures t.accepted ==> t.events == [Change]
    ensures t.accepted ==> t.action.status == status && t.action.disposable == disposable
    ensures t.accepted && !IsNullish(payload) ==> t.action.payload == payload
    ensures t.accepted && IsNullish(payload) ==> t.action.payload == a.payload
    ensures t.action.behavior == a.behavior && t.action.disabled == a.disabled
    ensures t.action.parent == a.parent && t.action.sibling == a.sibling && t.action.next == a.next
  {
    if a.disposable then Transition(false, a, [])
    else
      var p := if IsNullish(payload) then a.payload else payload;
      Transition(true, a.(status := status, disposable := disposable, payload := p), [Change])
  }

  /** `open`: emits `open` with the stored payload. */
  function Open(a: Action, payload: Value): (t: Transition)
    ensures t.accepted <==> !a.disposable
    ensures !t.accepted ==> t.action == a && t.events == []
    ensures t.accepted ==> t.action.status == Opened && !t.action.disposable
    ensures t.accepted ==> t.action == a.(status := Opened, disposable := false, payload := if IsNullish(payload) then a.payload else payload)
    ensures t.accepted ==> t.events == [Change, OpenEvent(t.action.payload)]
  {
    var s := Set(a, Opened, payload, false);
    if s.accepted then s.(events := s.events + [OpenEvent(s.action.payload)]) else s
  }

  /** `send`: emits `update` with the ARGUMENT, not the stored payload. */
  function Send(a: Action, payload: Value): (t: Transition)
    ensures t.accepted <==> !a.disposable
    ensures !t.accepted ==> t.action == a && t.events == []
    ensures t.accepted ==> t.action.status == Loading && !t.action.disposable
    ensures t.accepted ==> t.action == a.(status := Loading, disposable := false, payload := if IsNullish(payload) then a.payload else payload)
    ensures t.accepted ==> t.events == [Change, UpdateEvent(payload)]
  {
    var s := Set(a, Loading, payload, false);
    if s.accepted then s.(events := s.events + [UpdateEvent(payload)]) else s
  }

  /** `reject`: settles as errored; emits `error` with the ARGUMENT, not the stored payload. */
  function Reject(a: Action, payload: Value): (t: Transition)
    ensures t.accepted <==> !a.disposable
    ensures !t.accepted ==> t.action == a && t.events == []
    ensures t.accepted ==> t.action.status == Errored && t.action.disposable
    ensures t.accepted ==> t.action == a.(status := Errored, disposable := true, payload := if IsNullish(payload) then a.payload else payload)
    ensures t.accepted ==> t.events == [Change, ErrorEvent(payload)]
  {
    var s := Set(a, Errored, payload, true);
    if s.accepted then s.(events := s.events + [ErrorEvent(payload)]) else s
  }

  /** `resolve`: settles as done; emits `done` with the stored payload. */
  function Resolve(a: Action, payload: Value): (t: Transition)
    ensures t.accepted <==> !a.disposable
    ensures !t.accepted ==> t.action == a && t.events == []
    ensures t.accepted ==> t.action.status == Done && t.action.disposable
    ensures t.accepted ==> t.action == a.(status := Done, disposable := true, payload := if IsNullish(payload) then a.payload else payload)
    ensures t.accepted ==> t.events == [Change, DoneEvent(t.action.payload)]
  {
    var s := Set(a, Done, payload, true);
    if s.accepted then s.(events := s.events + [DoneEvent(s.action.payload)]) else s
  }

  /** `cancel`: settles as cancelled; emits `cancel` with the stored payload. */
  function Cancel(a: Action, payload: Value): (t: Transition)
    ensures t.accepted <==> !a.disposable
    ensures !t.accepted ==> t.action == a && t.events == []
    ensures t.accepted ==> t.action.status == Cancelled && t.action.disposable
    ensures t.accepted ==> t.action == a.(status := Cancelled, disposable := true, payload := if IsNullish(payload) then a.payload else payload)
    ensures t.accepted ==> t.events == [Change, CancelEvent(t.action.payload)]
  {
    var s := Set(a, Cancelled, payload, true);
    if s.accepted then s.(events := s.events + [CancelEvent(s.action.payload)]) else s
  }

  /** `toggle`: flips `disabled`, whatever the lifecycle, and emits `change`. */
  function Toggle(a: Action): (t: Transition)
    ensures t.accepted && t.events == [Change]
    ensures t.action.disabled == !a.disabled
    ensures t.action.(disabled := a.disabled) == a
  {
    Transition(true, a.(disabled := !a.disabled), [Change])
  }

  /**
   `is(type)`: compares `type` with the behaviour's tag for that status. The
   behaviour carries no tag for "unset", so an unset action matches nothing.
   */
  predicate Is(a: Action, s: Status) {
    s != Unset && a.status == s
  }

  /** The names listeners subscribe to. */
  datatype EventName = ChangeName | OpenName | UpdateName | ErrorName | DoneName | CancelName

  function NameOf(e: Event): EventName {
    match e
    case Change => ChangeName
    case OpenEvent(_) => OpenName
    case UpdateEvent(_) => UpdateName
    case ErrorEvent(_) => ErrorName
    case DoneEvent(_) => DoneName
    case CancelEvent(_) => CancelName
  }

  /** What registering a listener does: nothing, call it now with a payload, or subscribe. */
  datatype Listen = Ignored | CalledNow(v: Value) | Subscribed(name: EventName, once: bool)

  /** The shared shape of `onDone`/`onError`/`onCancel`: call at once if already in `status`, else listen once. */
  function OnSettled(a: Action, hasCallback: bool, status: Status, name: EventName): Listen {
    if !hasCallback then Ignored
    else if Is(a, status) then CalledNow(a.payload)
    else Subscribed(name, true)
  }

  function OnDone(a: Action, hasCallback: bool): (r: Listen)
    ensures r.CalledNow? <==> hasCallback && a.status == Done
    ensures r.CalledNow? ==> r.v == a.payload
    ensures hasCallback && a.status != Done ==> r == Subscribed(DoneName, true)
    ensures !hasCallback ==> r == Ignored
  {
    OnSettled(a, hasCallback, Done, DoneName)
  }

  function OnError(a: Action, hasCallback: bool): (r: Listen)
    ensures r.CalledNow? <==> hasCallback && a.status == Errored
    ensures r.CalledNow? ==> r.v == a.payload
    ensures hasCallback && a.status != Errored ==> r == Subscribed(ErrorName, true)
    ensures !hasCallback ==> r == Ignored
  {
    OnSettled(a, hasCallback, Errored, ErrorName)
  }

  function OnCancel(a: Action, hasCallback: bool): (r: Listen)
    ensures r.CalledNow? <==> hasCallback && a.status == Cancelled
    ensures r.CalledNow? ==> r.v == a.payload
    ensures hasCallback && a.status != Cancelled ==> r == Subscribed(CancelName, true)
    ensures !hasCallback ==> r == Ignored
  {
    OnSettled(a, hasCallback, Cancelled, CancelName)
  }

  /** `onUpdate` never calls at once: it subscribes to every later `update`. */
  function OnUpdate(a: Action, hasCallback: bool): (r: Listen)
    ensures hasCallback ==> r == Subscribed(UpdateName, false)
    ensures !hasCallback ==> r == Ignored
  {
    if hasCallback then Subscribed(UpdateName, false) else Ignored
  }

  /** One call of a transition method, as a value, so that whole call sequences can be reasoned about. */
  datatype Command =
    | OpenCmd(p: Value)
    | SendCmd(p: Value)
    | RejectCmd(p: Value)
    | ResolveCmd(p: Value)
    | CancelCmd(p: Value)
    | ToggleCmd

  function Apply(a: Action, c: Command): Transition {
    match c
    case OpenCmd(p) => Open(a, p)
    case SendCmd(p) => Send(a, p)
    case RejectCmd(p) => Reject(a, p)
    case ResolveCmd(p) => Resolve(a, p)
    case CancelCmd(p) => Cancel(a, p)
    case ToggleCmd => Toggle(a)
  }

  /** Apply commands in order; the result pairs the final record with every event emitted. */
  datatype Run = Run(action: Action, events: seq<Event>)

  function RunAll(a: Action, cs: seq<Command>): Run
    decreases |cs|
  {
    if cs == [] then Run(a, [])
    else
      var t := Apply(a, cs[0]);
      var rest := RunAll(t.action, cs[1..]);
      Run(rest.action, t.events + rest.events)
  }

  predicate IsTerminalEvent(e: Event) {
    e.ErrorEvent? || e.DoneEvent? || e.CancelEvent?
  }

  function TerminalCount(es: seq<Event>): nat {
    if es == [] then 0
    else (if IsTerminalEvent(es[0]) then 1 else 0) + TerminalCount(es[1..])
  }

  /** The lifecycle invariant: an action is disposable exactly when its status is terminal. */
  predicate WellFormed(a: Action) {
    a.disposable <==> Settled(a.status)
  }

  // ---------------------------------------------------------------------
  // Properties of the state machine
  // ---------------------------------------------------------------------

  /** Every successful transition emits `change` first and then exactly one event of its own; refused ones emit nothing. */
  lemma ChangeThenOwnEvent(a: Action, c: Command)
    ensures var t := Apply(a, c);
      t.accepted ==> |t.events| >= 1 && t.events[0] == Change
    ensures var t := Apply(a, c);
      c != ToggleCmd && t.accepted ==>
        |t.events| == 2 && NameOf(t.events[1]) == match c
          case OpenCmd(_) => OpenName
          case SendCmd(_) => UpdateName
          case RejectCmd(_) => ErrorName
          case ResolveCmd(_) => DoneName
          case CancelCmd(_) => CancelName
          case ToggleCmd => ChangeName
    ensures !Apply(a, c).accepted ==> Apply(a, c).events == []
  {
  }

  /** A single transition keeps the lifecycle invariant. */
  lemma ApplyKeepsWellFormed(a: Action, c: Command)
    requires WellFormed(a)
    ensures WellFormed(Apply(a, c).action)
  {
  }

  /** Once disposable, every command but `toggle` is refused and changes nothing; `toggle` only flips `disabled`. */
  lemma DisposableIsFrozen(a: Action, c: Command)
    requires a.disposable
    ensures c != ToggleCmd ==> Apply(a, c) == Transition(false, a, [])
    ensures c == ToggleCmd ==> Apply(a, c).action == a.(disabled := !a.disabled)
  {
  }

  /** A second `resolve` is refused by `set`: it changes nothing and emits nothing. */
  lemma SecondResolveIsNoOp(a: Action, p: Value, q: Value)
    ensures var first := Resolve(a, p);
      var second := Resolve(first.action, q);
      !second.accepted && second.action == first.action && second.events == []
  {
  }

  /** Toggling twice restores the action exactly. */
  lemma ToggleTwice(a: Action)
    ensures Toggle(Toggle(a).action).action == a
  {
  }

  /** The events of a run are the events of its parts, and its record is reached through the first part. */
  lemma {:induction false} RunAppend(a: Action, xs: seq<Command>, ys: seq<Command>)
    ensures RunAll(a, xs + ys).action == RunAll(RunAll(a, xs).action, ys).action
    ensures RunAll(a, xs + ys).events == RunAll(a, xs).events + RunAll(RunAll(a, xs).action, ys).events
    decreases |xs|
  {
    if xs == [] {
      assert xs + ys == ys;
    } else {
      var t := Apply(a, xs[0]);
      assert (xs + ys)[0] == xs[0];
      assert (xs + ys)[1..] == xs[1..] + ys;
      RunAppend(t.action, xs[1..], ys);
      var mid := RunAll(t.action, xs[1..]);
      assert RunAll(a, xs) == Run(mid.action, t.events + mid.events);
      var whole := RunAll(t.action, xs[1..] + ys);
      assert RunAll(a, xs + ys) == Run(whole.action, t.events + whole.events);
      assert t.events + (mid.events + RunAll(mid.action, ys).events)
          == (t.events + mid.events) + RunAll(mid.action, ys).events;
    }
  }

  lemma {:induction false} TerminalCountAppend(xs: seq<Event>, ys: seq<Event>)
    ensures TerminalCount(xs + ys) == TerminalCount(xs) + TerminalCount(ys)
  {
    if xs != [] {
      assert (xs + ys)[1..] == xs[1..] + ys;
      TerminalCountAppend(xs[1..], ys);
    } else {
      assert xs + ys == ys;
    }
  }

  lemma TerminalCountPair(x: Event, y: Event)
    ensures TerminalCount([x, y]) == (if IsTerminalEvent(x) then 1 else 0) + (if IsTerminalEvent(y) then 1 else 0)
  {
    assert [y][1..] == [];
    assert TerminalCount([y]) == (if IsTerminalEvent(y) then 1 else 0) + TerminalCount([]);
    assert [x, y][1..] == [y];
  }

  /** One call emits a terminal event only if it is what makes the action disposable. */
  lemma ApplyTerminalCount(a: Action, c: Command)
    requires WellFormed(a)
    ensures var t := Apply(a, c);
      TerminalCount(t.events) <= (if a.disposable then 0 else 1) &&
      (TerminalCount(t.events) == 1 ==> t.action.disposable)
  {
    var t := Apply(a, c);
    if t.events == [] {
    } else if t.events == [Change] {
      assert TerminalCount(t.events) == 0;
    } else {
      assert t.events == [Change, t.events[1]];
      TerminalCountPair(Change, t.events[1]);
    }
  }

  /** Any run from a well-formed action keeps the lifecycle invariant. */
  lemma {:induction false} RunKeepsWellFormed(a: Action, cs: seq<Command>)
    requires WellFormed(a)
    ensures WellFormed(RunAll(a, cs).action)
    decreases |cs|
  {
    if cs != [] {
      ApplyKeepsWellFormed(a, cs[0]);
      RunKeepsWellFormed(Apply(a, cs[0]).action, cs[1..]);
    }
  }

  /**
   Settlement is observed at most once: whatever sequence of transition calls
   is made on a well-formed action, at most one `done`/`error`/`cancel` event
   is emitted, and none at all if the action had already settled.
   */
  lemma {:induction false} SettlesAtMostOnce(a: Action, cs: seq<Command>)
    requires WellFormed(a)
    ensures TerminalCount(RunAll(a, cs).events) <= (if a.disposable then 0 else 1)
    decreases |cs|
  {
    if cs != [] {
      var t := Apply(a, cs[0]);
      ApplyKeepsWellFormed(a, cs[0]);
      ApplyTerminalCount(a, cs[0]);
      SettlesAtMostOnce(t.action, cs[1..]);
      TerminalCountAppend(t.events, RunAll(t.action, cs[1..]).events);
    }
  }

  /** A fresh action settles at most once over any sequence of calls. */
  lemma FreshSettlesAtMostOnce(behavior: nat, parent: Option<Id>, cs: seq<Command>)
    ensures TerminalCount(RunAll(Fresh(behavior, parent), cs).events) <= 1
    ensures WellFormed(RunAll(Fresh(behavior, parent), cs).action)
  {
    SettlesAtMostOnce(Fresh(behavior, parent), cs);
    RunKeepsWellFormed(Fresh(behavior, parent), cs);
  }

  /** The status an accepted command sets; `toggle` sets none and keeps the current one. */
  function SetsStatus(a: Action, c: Command): Status {
    match c
    case OpenCmd(_) => Opened
    case SendCmd(_) => Loading
    case RejectCmd(_) => Errored
    case ResolveCmd(_) => Done
    case CancelCmd(_) => Cancelled
    case ToggleCmd => a.status
  }

  /**
   `is(type)` reports the status the last accepted transition set: a fresh
   action matches no status, an accepted command makes exactly its own status
   match, and a refused command changes no answer. On a well-formed action,
   being disposable is matching one of the three terminal statuses.
   */
  lemma IsReportsLastTransition(a: Action, c: Command, s: Status)
    ensures !Is(Fresh(a.behavior, a.parent), s)
    ensures Apply(a, c).accepted ==> (Is(Apply(a, c).action, s) <==> s != Unset && s == SetsStatus(a, c))
    ensures !Apply(a, c).accepted ==> (Is(Apply(a, c).action, s) <==> Is(a, s))
    ensures WellFormed(a) ==> (a.disposable <==> Is(a, Done) || Is(a, Errored) || Is(a, Cancelled))
  {
  }

  /** The settled listeners call at once exactly when `is` reports their status. */
  lemma ListenersConsultIs(a: Action)
    ensures OnDone(a, true).CalledNow? <==> Is(a, Done)
    ensures OnError(a, true).CalledNow? <==> Is(a, Errored)
    ensures OnCancel(a, true).CalledNow? <==> Is(a, Cancelled)
  {
  }

  /**
   A done or cancel listener sees the same payload whether it was attached
   before settlement (it receives the emitted event's value) or after (it is
   called at once with the stored payload).
   */
  lemma LateAndEarlyListenersAgree(a: Action, p: Value)
    requires WellFormed(a) && !a.disposable
    ensures var t := Resolve(a, p);
      OnDone(a, true) == Subscribed(DoneName, true) &&
      OnDone(t.action, true) == CalledNow(t.events[1].v)
    ensures var t := Cancel(a, p);
      OnCancel(a, true) == Subscribed(CancelName, true) &&
      OnCancel(t.action, true) == CalledNow(t.events[1].v)
  {
  }

  /**
   For `reject` the two can differ: the `error` event carries the argument,
   while a listener attached afterwards is called with the stored payload,
   which a null or undefined argument leaves at its previous value.
   */
  lemma LateErrorListenerSeesStoredPayload(a: Action)
    requires !a.disposable && !IsNullish(a.payload)
    ensures var t := Reject(a, Undefined);
      t.events[1] == ErrorEvent(Undefined) &&
      OnError(t.action, true) == CalledNow(a.payload) &&
      a.payload != Undefined
  {
  }
}

=== FILE: action_tree.dfy ===
/**
 The links between actions of a history tree, held in an arena indexed by
 node id: each action names its parent, its next sibling and the first
 action appended after it (`next`). Covers the `children` accessor and
 `teardown`.
 */
module ActionTree {
  import opened Values
  import opened Actions

  type Arena = map<Id, Action>

  /** Every link of every node points at a node of the arena. */
  predicate Linked(arena: Arena) {
    forall id :: id in arena ==>
      (arena[id].parent.Some? ==> arena[id].parent.value in arena) &&
      (arena[id].sibling.Some? ==> arena[id].sibling.value in arena) &&
      (arena[id].next.Some? ==> arena[id].next.value in arena)
  }

  /** `r` follows `sibling` links: each node's sibling is the node after it. */
  predicate SiblingWalk(arena: Arena, r: seq<Id>) {
    (forall i :: 0 <= i < |r| ==> r[i] in arena) &&
    (forall i :: 0 <= i < |r| - 1 ==> arena[r[i]].sibling == Some(r[i + 1]))
  }

  /** Does `link` name a node the arena holds? A link to any other id ends a walk, as a missing link does. */
  predicate Points(arena: Arena, link: Option<Id>) {
    link.Some? && link.value in arena
  }

  /** Walk the sibling chain from `start`, visiting at most `fuel` nodes. */
  function Chain(arena: Arena, start: Option<Id>, fuel: nat): (r: seq<Id>)
    ensures |r| <= fuel
    ensures SiblingWalk(arena, r)
    ensures r == [] <==> !Points(arena, start) || fuel == 0
    ensures r != [] ==> r[0] == start.value
    ensures 0 < |r| < fuel ==> !Points(arena, arena[r[|r| - 1]].sibling)
    decreases fuel
  {
    if fuel == 0 || !Points(arena, start) then []
    else [start.value] + Chain(arena, arena[start.value].sibling, fuel - 1)
  }

  /**
   The `children` accessor: `next`, then `next`'s sibling, then its sibling,
   and so on until a node has no sibling. A well-formed tree has no sibling
   cycle; should one exist, the walk stops after as many nodes as the arena
   holds instead of running forever.
   */
  function Children(arena: Arena, id: Id): (r: seq<Id>)
    requires id in arena
    ensures SiblingWalk(arena, r)
    ensures r == [] <==> !Points(arena, arena[id].next)
    ensures Linked(arena) ==> (arena[id].next.None? <==> r == [])
    ensures r != [] ==> r[0] == arena[id].next.value
    ensures |r| <= |arena|
    ensures 0 < |r| < |arena| ==> !Points(arena, arena[r[|r| - 1]].sibling)
  {
    Chain(arena, arena[id].next, |arena|)
  }

  function Elements(r: seq<Id>): set<Id> {
    set x | x in r
  }

  predicate Distinct(r: seq<Id>) {
    forall i, j :: 0 <= i < j < |r| ==> r[i] != r[j]
  }

  lemma {:induction false} DistinctCardinality(r: seq<Id>)
    requires Distinct(r)
    ensures |Elements(r)| == |r|
  {
    if r != [] {
      var tail := r[1..];
      assert Distinct(tail);
      DistinctCardinality(tail);
      var rest := Elements(tail);
      assert Elements(r) == rest + {r[0]};
      assert r[0] !in rest;
      assert |rest + {r[0]}| == |rest| + 1;
    }
  }

  lemma {:induction false} SubsetCardinality(a: set<Id>, b: set<Id>)
    requires a <= b
    ensures |a| <= |b|
    decreases a
  {
    if a != {} {
      var x :| x in a;
      SubsetCardinality(a - {x}, b - {x});
    }
  }

  lemma SubsetOfEqualSize(a: set<Id>, b: set<Id>)
    requires a <= b && |a| == |b|
    ensures a == b
  {
    if a != b {
      var x :| x in b && x !in a;
      assert |b - {x}| == |b| - 1;
      SubsetCardinality(a, b - {x});
    }
  }

  /** A walk of |arena| distinct nodes visits every node, so any further sibling is one it already visited. */
  lemma FullWalkCoversArena(arena: Arena, r: seq<Id>, s: Id)
    requires SiblingWalk(arena, r) && Distinct(r) && |r| == |arena| && s in arena
    ensures s in r
  {
    DistinctCardinality(r);
    var visited := Elements(r);
    assert visited <= arena.Keys;
    assert |arena.Keys| == |arena|;
    SubsetOfEqualSize(visited, arena.Keys);
  }

  /**
   `children` returns the whole sibling chain: either the last child has no
   sibling in the arena, or that sibling is a child already listed (a sibling
   cycle, which the tree's own operations never build).
   */
  lemma ChildrenReachChainEnd(arena: Arena, id: Id)
    requires id in arena
    ensures var r := Children(arena, id);
      r == [] || !Points(arena, arena[r[|r| - 1]].sibling) || arena[r[|r| - 1]].sibling.value in r
  {
    var r := Children(arena, id);
    if r != [] && Points(arena, arena[r[|r| - 1]].sibling) {
      var s := arena[r[|r| - 1]].sibling.value;
      if Distinct(r) {
        // Cut by its fuel: the walk holds |arena| distinct nodes.
        assert |r| == |arena|;
        FullWalkCoversArena(arena, r, s);
      } else {
        RepeatMeansCycle(arena, r);
      }
    }
  }

  /** A sibling walk that repeats a node has entered a cycle, so the last node's sibling is already on the walk. */
  lemma RepeatMeansCycle(arena: Arena, r: seq<Id>)
    requires SiblingWalk(arena, r) && !Distinct(r)
    ensures arena[r[|r| - 1]].sibling.Some? ==> arena[r[|r| - 1]].sibling.value in r
  {
    var i, j :| 0 <= i < j < |r| && r[i] == r[j];
    var last := |r| - 1;
    if arena[r[last]].sibling.Some? {
      // From j onwards the walk repeats the walk from i, shifted by j - i.
      var k := last - (j - i);
      CycleShift(arena, r, i, j, k);
      SiblingStep(arena, r, k);
    }
  }

  /** Inside a sibling walk, a node's sibling is the node listed after it. */
  lemma SiblingStep(arena: Arena, r: seq<Id>, k: int)
    requires SiblingWalk(arena, r) && 0 <= k < |r| - 1
    ensures arena[r[k]].sibling == Some(r[k + 1])
  {
  }

  /** Two equal positions of a sibling walk stay equal when both advance together. */
  lemma {:induction false} CycleShift(arena: Arena, r: seq<Id>, i: int, j: int, k: int)
    requires SiblingWalk(arena, r) && 0 <= i < j < |r| && r[i] == r[j]
    requires i <= k && k + (j - i) < |r|
    ensures r[k] == r[k + (j - i)]
    decreases k - i
  {
    if k > i {
      CycleShift(arena, r, i, j, k - 1);
      SiblingStep(arena, r, k - 1);
      SiblingStep(arena, r, k - 1 + (j - i));
    }
  }

  /**
   `teardown`: detach a node from the tree by clearing its parent and sibling
   and its next node's parent. Nothing else in the arena changes.
   */
  function Teardown(arena: Arena, id: Id): (r: Arena)
    requires id in arena
    ensures r.Keys == arena.Keys
    ensures r[id].parent.None? && r[id].sibling.None?
    ensures r[id].next == arena[id].next
    ensures Points(arena, arena[id].next) ==> r[arena[id].next.value].parent.None?
    ensures forall k :: k in arena && k != id && Some(k) != arena[id].next ==> r[k] == arena[k]
    ensures Points(arena, arena[id].next) && arena[id].next.value != id ==>
      r[arena[id].next.value] == arena[arena[id].next.value].(parent := None)
    ensures r[id].(parent := arena[id].parent, sibling := arena[id].sibling) == arena[id]
      || Some(id) == arena[id].next
    ensures Linked(arena) ==> Linked(r)
  {
    var a := arena[id];
    var detached := arena[id := a.(parent := None, sibling := None)];
    match a.next
    case None => detached
    case Some(n) => if n in detached then detached[n := detached[n].(parent := None)] else detached
  }

  /** Tearing down a node that is already detached changes nothing. */
  lemma TeardownIsIdempotent(arena: Arena, id: Id)
    requires id in arena
    ensures Teardown(Teardown(arena, id), id) == Teardown(arena, id)
  {
  }
}

=== FILE: coroutine.dfy ===
/**
 The coroutine resolver: it classifies what an action's behaviour returned
 and drives the action accordingly. A promise-like value opens the action
 and leaves settlement to a later tick; any other function is a thunk that
 is handed the action and takes over; anything else resolves the action at
 once with that value.
 */
module Coroutine {
  import opened Values
  import opened Actions

  /** `isPromise(obj, typeof obj)`: truthy, an object or function, with a callable `then`. */
  predicate IsPromise(body: Value) {
    Truthy(body) && (TypeOf(body) == TObject || TypeOf(body) == TFunction) && HasCallableThen(body)
  }

  /** The three ways a behaviour's return value is treated. */
  datatype Branch = Deferred(promise: Value) | Manual(thunk: Value) | Immediate(value: Value)

  /** The classification, in the order the resolver tests it: promise first, then function. */
  function Classify(body: Value): (b: Branch)
    ensures b.Deferred? <==> HasCallableThen(body)
    ensures b.Manual? <==> body.Func? && !body.callableThen
    ensures b.Immediate? <==> !body.Func? && !HasCallableThen(body)
  {
    if IsPromise(body) then Deferred(body)
    else if TypeOf(body) == TFunction then Manual(body)
    else Immediate(body)
  }

  /**
   What one call of the resolver did: the branch taken, the action after the
   resolver's own transitions, the events those emitted, and the thunk it
   invoked with the action and the store, if any.
   */
  datatype Outcome = Outcome(branch: Branch, action: Action, events: seq<Event>, invoked: Option<Value>)

  function Run(a: Action, body: Value): (r: Outcome)
    ensures r.branch == Classify(body)
    // promise-like: opened now, not settled
    ensures r.branch.Deferred? ==> r.action == Open(a, Undefined).action && r.events == Open(a, Undefined).events
    ensures r.branch.Deferred? && !a.disposable ==> r.action.status == Opened && !r.action.disposable
    // thunk: called with the action, which the resolver itself leaves alone
    ensures r.branch.Manual? <==> r.invoked == Some(body)
    ensures r.branch.Manual? ==> r.action == a && r.events == []
    // anything else: resolved at once with that value
    ensures r.branch.Immediate? ==> r.action == Resolve(a, body).action && r.events == Resolve(a, body).events
    // the same action comes back in every branch
    ensures r.action.behavior == a.behavior && r.action.disabled == a.disabled
    ensures r.action.parent == a.parent && r.action.sibling == a.sibling && r.action.next == a.next
  {
    match Classify(body)
    case Deferred(p) =>
      var t := Open(a, Undefined);
      Outcome(Deferred(p), t.action, t.events, None)
    case Manual(f) =>
      Outcome(Manual(f), a, [], Some(f))
    case Immediate(v) =>
      var t := Resolve(a, v);
      Outcome(Immediate(v), t.action, t.events, None)
  }

  /** How the promise behind a deferred branch eventually settled. */
  datatype Settlement = Fulfilled(result: Value) | Rejected(error: Value)

  /** The continuation the promise branch installs: resolve with the result, or reject with the error. */
  function Settle(a: Action, s: Settlement): (t: Transition)
    ensures t.accepted <==> !a.disposable
    ensures t.accepted && s.Fulfilled? ==> t.action.status == Done
    ensures t.accepted && s.Rejected? ==> t.action.status == Errored
    ensures t.accepted ==> t.action.disposable
    ensures !t.accepted ==> t.action == a && t.events == []
    ensures t.accepted && s.Fulfilled? ==>
      t.action.payload == (if IsNullish(s.result) then a.payload else s.result) &&
      t.events == [Change, DoneEvent(t.action.payload)]
    ensures t.accepted && s.Rejected? ==>
      t.action.payload == (if IsNullish(s.error) then a.payload else s.error) &&
      t.events == [Change, ErrorEvent(s.error)]
  {
    match s
    case Fulfilled(v) => Resolve(a, v)
    case Rejected(e) => Reject(a, e)
  }

  // ---------------------------------------------------------------------
  // Properties of the resolver
  // ---------------------------------------------------------------------

  /** A function that also has a callable `then` is treated as a promise, not as a thunk. */
  lemma ThenableFunctionIsPromise(id: nat)
    ensures Classify(Func(id, true)).Deferred?
    ensures Classify(Func(id, false)).Manual?
  {
  }

  /** `null` reports `typeof` "object" but is falsy, so it resolves at once; so do `undefined` and `0`. */
  lemma FalsyValuesResolveImmediately(a: Action)
    requires !a.disposable
    ensures Run(a, Null).branch == Immediate(Null) && Run(a, Null).action.status == Done
    ensures Run(a, Undefined).branch == Immediate(Undefined) && Run(a, Undefined).action.status == Done
    ensures Run(a, Num(0)).action.status == Done && Run(a, Num(0)).action.payload == Num(0)
  {
  }

  /**
   A fresh action given a promise-like body is open and unsettled right after
   the resolver returns, and settles to done or error only when the deferred
   continuation runs with the promise's outcome.
   */
  lemma PromiseSettlesLater(behavior: nat, parent: Option<Id>, body: Value, s: Settlement)
    requires IsPromise(body)
    ensures var r := Run(Fresh(behavior, parent), body);
      r.action.status == Opened && !r.action.disposable &&
      r.events == [Change, OpenEvent(Null)] &&
      var t := Settle(r.action, s);
      t.accepted &&
      t.action.status == (if s.Fulfilled? then Done else Errored) &&
      (s.Fulfilled? && !IsNullish(s.result) ==> t.action.payload == s.result)
  {
  }

  /** Whatever the branch, the resolver emits at most one settlement event. */
  lemma RunSettlesAtMostOnce(a: Action, body: Value)
    requires WellFormed(a)
    ensures TerminalCount(Run(a, body).events) <= 1
    ensures WellFormed(Run(a, body).action)
  {
    var r := Run(a, body);
    match Classify(body)
    case Deferred(_) =>
      ApplyTerminalCount(a, OpenCmd(Undefined));
      ApplyKeepsWellFormed(a, OpenCmd(Undefined));
    case Manual(_) =>
    case Immediate(v) =>
      ApplyTerminalCount(a, ResolveCmd(v));
      ApplyKeepsWellFormed(a, ResolveCmd(v));
  }
}

=== FILE: domain.dfy ===
/**
 Domains and the registry that orders them. A domain is a reducer-like unit
 that owns the state under one key; each of its contract methods is
 optional, and `Domain.ensure` back-fills the missing ones with defaults.
 The realm is the ordered list of (key, domain) registrations.
 */
module Domains {
  import opened Values
  import opened Actions

  /** The lifecycle identities that reach a domain's own methods rather than its `register` table. */
  datatype Lifecycle = InitialStateHook | SerializeHook | DeserializeHook

  /** An action identity as dispatched: a behaviour's tag for one status, or a lifecycle identity. */
  datatype Tag = Typed(behavior: nat, status: Status) | Lifecycle(hook: Lifecycle)

  /** A handler maps the domain's current sub-state and the payload to its next sub-state. */
  type Handler = (Value, Payload) -> Value

  /** A `setup`/`teardown` hook: its effects are the application's and are not modelled. */
  datatype Hook = NoOp | Custom(name: string)

  /**
   A domain as the application supplies it: every method of the domain
   contract may be missing (`None`). `lifecycle` answers the lifecycle
   identities through the domain's `getInitialState`/`serialize`/`deserialize`.
   */
  datatype Config = Config(
    register: Option<Tag -> Option<Handler>>,
    shouldCommit: Option<(Value, Value) -> bool>,
    stage: Option<(Value, Value) -> Value>,
    commit: Option<(Value, State) -> Value>,
    setup: Option<Hook>,
    teardown: Option<Hook>,
    lifecycle: Lifecycle -> Option<Handler>)

  /** A domain after `Domain.ensure`: every method of `Domain.prototype` is present. */
  datatype Domain = Domain(
    register: Tag -> Option<Handler>,
    shouldCommit: (Value, Value) -> bool,
    stage: (Value, Value) -> Value,
    commit: (Value, State) -> Value,
    setup: Hook,
    teardown: Hook,
    lifecycle: Lifecycle -> Option<Handler>)

  // The default methods of `Domain.prototype`.

  /** `register` returns an empty mapping: no identity has a handler. */
  function DefaultRegister(t: Tag): Option<Handler> {
    None
  }

  /** `shouldCommit(last, next)` is always true. */
  function DefaultShouldCommit(last: Value, next: Value): bool {
    true
  }

  /** `stage(last, next)` returns `next`. */
  function DefaultStage(last: Value, next: Value): Value {
    next
  }

  /** `commit(next)` returns `next`. */
  function DefaultCommit(next: Value, state: State): Value {
    next
  }

  /** `Domain.ensure`: fill in each missing method with the prototype's; present ones are never overwritten. */
  function Ensure(c: Config): (d: Domain)
    ensures c.register.Some? ==> d.register == c.register.value
    ensures c.shouldCommit.Some? ==> d.shouldCommit == c.shouldCommit.value
    ensures c.stage.Some? ==> d.stage == c.stage.value
    ensures c.commit.Some? ==> d.commit == c.commit.value
    ensures c.setup.Some? ==> d.setup == c.setup.value
    ensures c.teardown.Some? ==> d.teardown == c.teardown.value
    ensures c.register.None? ==> forall t :: d.register(t).None?
    ensures c.shouldCommit.None? ==> forall last, next :: d.shouldCommit(last, next)
    ensures c.stage.None? ==> forall last, next :: d.stage(last, next) == next
    ensures c.commit.None? ==> forall next, s :: d.commit(next, s) == next
    ensures c.setup.None? ==> d.setup == NoOp
    ensures c.teardown.None? ==> d.teardown == NoOp
    ensures d.lifecycle == c.lifecycle
  {
    Domain(
      c.register.GetOr(DefaultRegister),
      c.shouldCommit.GetOr(DefaultShouldCommit),
      c.stage.GetOr(DefaultStage),
      c.commit.GetOr(DefaultCommit),
      c.setup.GetOr(NoOp),
      c.teardown.GetOr(NoOp),
      c.lifecycle)
  }

  /** The domain viewed again as a configuration object with every method present. */
  function AsConfig(d: Domain): (c: Config)
    ensures c.register.Some? && c.shouldCommit.Some? && c.stage.Some? && c.commit.Some?
    ensures c.setup.Some? && c.teardown.Some?
  {
    Config(Some(d.register), Some(d.shouldCommit), Some(d.stage), Some(d.commit),
           Some(d.setup), Some(d.teardown), d.lifecycle)
  }

  /** `ensure` is idempotent: a second pass finds every method present and changes nothing. */
  lemma EnsureIdempotent(c: Config)
    ensures Ensure(AsConfig(Ensure(c))) == Ensure(c)
  {
  }

  /** `ensure` keeps every method already present on the object, so it returns the same object when nothing is missing. */
  lemma EnsureKeepsComplete(d: Domain)
    ensures Ensure(AsConfig(d)) == d
  {
  }

  /** The object with no methods of its own gets exactly the defaults. */
  function Empty(lifecycle: Lifecycle -> Option<Handler>): Config {
    Config(None, None, None, None, None, None, lifecycle)
  }

  /** A domain built from defaults alone answers no identity, always commits, and stages and commits values unchanged. */
  lemma DefaultsOfEmptyDomain(lifecycle: Lifecycle -> Option<Handler>)
    ensures var d := Ensure(Empty(lifecycle));
      (forall t :: d.register(t).None?) &&
      (forall last, next :: d.shouldCommit(last, next)) &&
      (forall last, next :: d.stage(last, next) == next) &&
      (forall next, s :: d.commit(next, s) == next) &&
      d.setup == NoOp && d.teardown == NoOp
  {
  }

  // ---------------------------------------------------------------------
  // The realm: ordered registrations
  // ---------------------------------------------------------------------

  datatype Registration = Registration(key: Key, domain: Domain)

  type Realm = seq<Registration>

  /** One compiled handler: the key it writes, its domain, and the handler itself. */
  datatype Entry = Entry(key: Key, domain: Domain, handler: Handler)

  /** The handler a domain offers for an identity: its `register` table, or its own lifecycle method. */
  function HandlerFor(d: Domain, t: Tag): Option<Handler> {
    match t
    case Typed(_, _) => d.register(t)
    case Lifecycle(h) => d.lifecycle(h)
  }

  /** `realm.register(type)`: the handlers for `t`, one per registration that answers it, in registration order. */
  function Register(realm: Realm, t: Tag): (r: seq<Entry>)
    ensures |r| <= |realm|
    ensures forall e :: e in r ==> exists reg :: reg in realm && reg.key == e.key && reg.domain == e.domain
    ensures forall e :: e in r ==> HandlerFor(e.domain, t) == Some(e.handler)
    ensures (forall reg :: reg in realm ==> HandlerFor(reg.domain, t).None?) ==> r == []
  {
    if realm == [] then []
    else
      var reg := realm[0];
      var rest := Register(realm[1..], t);
      match HandlerFor(reg.domain, t)
      case None => rest
      case Some(h) => [Entry(reg.key, reg.domain, h)] + rest
  }

  /** Registering distributes over concatenation of realms: earlier registrations' handlers come first. */
  lemma {:induction false} RegisterAppend(a: Realm, b: Realm, t: Tag)
    ensures Register(a + b, t) == Register(a, t) + Register(b, t)
    decreases |a|
  {
    if a == [] {
      assert a + b == b;
    } else {
      assert (a + b)[1..] == a[1..] + b;
      RegisterAppend(a[1..], b, t);
    }
  }

  /** `realm.add(key, config)`: append a registration of the ensured domain. */
  function Add(realm: Realm, key: Key, c: Config): (r: Realm)
    ensures |r| == |realm| + 1 && r[..|realm|] == realm
    ensures r[|realm|].key == key
    ensures r[|realm|].domain == Ensure(c)
  {
    realm + [Registration(key, Ensure(c))]
  }

  /**
   A domain's `addDomain(key, config)`: register a sub-domain under
   `[parentKey] ++ key`, nested beneath the parent's key and after every
   registration already present (so after its parent).
   */
  function AddSubDomain(realm: Realm, parentKey: string, key: Key, c: Config): (r: Realm)
    ensures |r| == |realm| + 1 && r[..|realm|] == realm
    ensures |r[|realm|].key| == |key| + 1
    ensures r[|realm|].key[0] == parentKey && r[|realm|].key[1..] == key
  {
    Add(realm, [parentKey] + key, c)
  }

  /** A sub-domain answers an identity after every domain registered before it, its parent included. */
  lemma SubDomainHandlersComeLast(realm: Realm, parentKey: string, key: Key, c: Config, t: Tag)
    ensures var d := Ensure(c);
      Register(AddSubDomain(realm, parentKey, key, c), t) ==
        Register(realm, t) + (if HandlerFor(d, t).Some? then [Entry([parentKey] + key, d, HandlerFor(d, t).value)] else [])
  {
    var reg := Registration([parentKey] + key, Ensure(c));
    RegisterAppend(realm, [reg], t);
    assert Register([reg], t) == (if HandlerFor(reg.domain, t).Some? then [Entry(reg.key, reg.domain, HandlerFor(reg.domain, t).value)] else []);
  }

  /** A domain left with the default `register` contributes no handler for any action. */
  lemma DefaultDomainAddsNoHandlers(realm: Realm, key: Key, lifecycle: Lifecycle -> Option<Handler>, b: nat, s: Status)
    ensures Register(Add(realm, key, Empty(lifecycle)), Typed(b, s)) == Register(realm, Typed(b, s))
  {
    var reg := Registration(key, Ensure(Empty(lifecycle)));
    RegisterAppend(realm, [reg], Typed(b, s));
    assert Register([reg], Typed(b, s)) == [];
  }
}

=== FILE: microcosm.dfy ===
/**
 The store's reconciliation pipeline. A store holds five state layers:
 `archived` (folded from history that has been pruned), `cached` (the last
 stable point), `staged` (every domain's working view, optimistic actions
 included), `head` (staged after each domain's commit policy) and `state`
 (what is published). Each operation here is a pure function from the store
 record to the new record; `release` also returns the events it emitted.
 */
module Microcosm {
  import opened Values
  import opened Actions
  import opened Domains

  /**
   A store. `history` identifies the shared action history (which is not
   modelled); `forked` records whether the store has a parent store, whose
   current head is passed to the operations that read it.
   */
  datatype Store = Store(
    history: nat,
    pure: bool,
    forked: bool,
    realm: Realm,
    archived: State,
    cached: State,
    staged: State,
    head: State,
    state: State)

  /** The store's own `change` event, carrying the newly published state. */
  datatype StoreEvent = Changed(state: State)

  datatype Released = Released(store: Store, events: seq<StoreEvent>)

  /** What `dispatch` reads from an action: its identity and payload. */
  datatype Act = Act(tag: Tag, payload: Payload)

  // ---------------------------------------------------------------------
  // Construction
  // ---------------------------------------------------------------------

  /** A root store: every layer starts empty, and it has its own history. */
  function New(history: nat, pure: bool): (s: Store)
    ensures !s.forked && s.realm == []
    ensures s.archived == s.cached == s.staged == s.head == s.state == map[]
  {
    Store(history, pure, false, [], map[], map[], map[], map[], map[])
  }

  /**
   `fork`: a child store over the same history and with the same purity.
   Its archive and cache start from the parent's, its staged and head from
   the parent's head, its published state from the parent's; its realm starts
   empty and dispatches independently.
   */
  function Fork(parent: Store): (child: Store)
    ensures child.history == parent.history && child.pure == parent.pure
    ensures child.forked && child.realm == []
    ensures child.archived == parent.archived && child.cached == parent.cached
    ensures child.staged == parent.head && child.head == parent.head
    ensures child.state == parent.state
  {
    Store(parent.history, parent.pure, true, [], parent.archived, parent.cached,
          parent.head, parent.head, parent.state)
  }

  // ---------------------------------------------------------------------
  // Dispatch: the pure fold
  // ---------------------------------------------------------------------

  /** The keys a list of handlers writes. */
  function KeysOf(handlers: seq<Entry>): set<Key> {
    set i | 0 <= i < |handlers| :: handlers[i].key
  }

  /** One fold step: run the handler on the key's current value and write the domain's staged result back. */
  function Step(e: Entry, state: State, p: Payload): State {
    var last := Get(state, e.key);
    Put(state, e.key, e.domain.stage(last, e.handler(last, p)))
  }

  /**
   `dispatch(state, action)`: fold the handlers in order, each reading the
   state as left by the ones before it. Keys no handler names are untouched;
   no handlers means the state comes back unchanged.
   */
  function Dispatch(handlers: seq<Entry>, state: State, p: Payload): (r: State)
    ensures handlers == [] ==> r == state
    ensures r.Keys == state.Keys + KeysOf(handlers)
    ensures forall k :: k !in KeysOf(handlers) ==> Get(r, k) == Get(state, k)
    decreases |handlers|
  {
    if handlers == [] then state
    else
      assert KeysOf(handlers) == {handlers[0].key} + KeysOf(handlers[1..]) by {
        assert forall i :: 0 < i < |handlers| ==> handlers[i] == handlers[1..][i - 1];
      }
      Dispatch(handlers[1..], Step(handlers[0], state, p), p)
  }

  /** Dispatch an action against the store's realm, starting from `state`. */
  function DispatchIn(realm: Realm, state: State, act: Act): State {
    Dispatch(Register(realm, act.tag), state, act.payload)
  }

  /** The fold over a concatenation is the fold over the second part starting where the first left off. */
  lemma {:induction false} DispatchAppend(a: seq<Entry>, b: seq<Entry>, state: State, p: Payload)
    ensures Dispatch(a + b, state, p) == Dispatch(b, Dispatch(a, state, p), p)
    decreases |a|
  {
    if a == [] {
      assert a + b == b;
    } else {
      assert (a + b)[1..] == a[1..] + b;
      assert (a + b)[0] == a[0];
      DispatchAppend(a[1..], b, Step(a[0], state, p), p);
    }
  }

  /** Each handler sees the state already updated by the handlers before it. */
  lemma HandlerSeesEarlierWrites(handlers: seq<Entry>, i: nat, state: State, p: Payload)
    requires i < |handlers|
    ensures var before := Dispatch(handlers[..i], state, p);
      Dispatch(handlers[..i + 1], state, p) == Step(handlers[i], before, p)
  {
    assert handlers[..i + 1] == handlers[..i] + [handlers[i]];
    DispatchAppend(handlers[..i], [handlers[i]], state, p);
  }

  predicate DistinctKeys(handlers: seq<Entry>) {
    forall i, j :: 0 <= i < j < |handlers| ==> handlers[i].key != handlers[j].key
  }

  /**
   A reference definition of dispatch for handlers on distinct keys: every
   handler then reads its key's value in the original state, and the result
   binds each key to that domain's staged value.
   */
  lemma {:induction false} DispatchDistinctKeys(handlers: seq<Entry>, state: State, p: Payload)
    requires DistinctKeys(handlers)
    ensures forall i :: 0 <= i < |handlers| ==>
      var e := handlers[i];
      Get(Dispatch(handlers, state, p), e.key) == e.domain.stage(Get(state, e.key), e.handler(Get(state, e.key), p))
    decreases |handlers|
  {
    if handlers != [] {
      var e := handlers[0];
      var rest := handlers[1..];
      var next := Step(e, state, p);
      assert DistinctKeys(rest);
      DispatchDistinctKeys(rest, next, p);
      forall j | 0 <= j < |rest| ensures rest[j].key != e.key {
        assert rest[j] == handlers[j + 1];
      }
      assert e.key !in KeysOf(rest);
      forall i | 0 <= i < |handlers|
        ensures var h := handlers[i];
          Get(Dispatch(handlers, state, p), h.key) == h.domain.stage(Get(state, h.key), h.handler(Get(state, h.key), p))
      {
        if i > 0 {
          assert handlers[i] == rest[i - 1];
          assert Get(next, handlers[i].key) == Get(state, handlers[i].key);
        }
      }
    }
  }

  /** The dispatch loop as written: handlers applied one at a time, in order. */
  method DispatchLoop(handlers: seq<Entry>, state: State, p: Payload) returns (r: State)
    ensures r == Dispatch(handlers, state, p)
  {
    r := state;
    var i := 0;
    while i < |handlers|
      invariant 0 <= i <= |handlers|
      invariant r == Dispatch(handlers[..i], state, p)
    {
      HandlerSeesEarlierWrites(handlers, i, state, p);
      r := Step(handlers[i], r, p);
      i := i + 1;
    }
    assert handlers[..i] == handlers;
  }

  // ---------------------------------------------------------------------
  // Layer copies
  // ---------------------------------------------------------------------

  /** `getInitialState`: dispatch the lifecycle identity over an empty state. */
  function GetInitialState(s: Store): (r: State)
    ensures r.Keys == KeysOf(Register(s.realm, Lifecycle(InitialStateHook)))
    ensures var hs := Register(s.realm, Lifecycle(InitialStateHook));
      DistinctKeys(hs) ==> forall i :: 0 <= i < |hs| ==>
        Get(r, hs[i].key) == hs[i].domain.stage(Undefined, hs[i].handler(Undefined, Val(Null)))
  {
    var hs := Register(s.realm, Lifecycle(InitialStateHook));
    if DistinctKeys(hs) then
      DispatchDistinctKeys(hs, map[], Val(Null));
      Dispatch(hs, map[], Val(Null))
    else
      Dispatch(hs, map[], Val(Null))
  }

  /** `archive`: the archive moves up to the cache point. */
  function Archive(s: Store): (r: Store)
    ensures r.archived == s.cached
    ensures r.(archived := s.archived) == s
  {
    s.(archived := s.cached)
  }

  /** `cache`: the cache point moves up to what is staged. */
  function Cache(s: Store): (r: Store)
    ensures r.cached == s.staged
    ensures r.(cached := s.cached) == s
  {
    s.(cached := s.staged)
  }

  /** `rollback`: staging restarts from the cache point. */
  function Rollback(s: Store): (r: Store)
    ensures r.staged == s.cached
    ensures r.(staged := s.staged) == s
  {
    s.(staged := s.cached)
  }

  /** `checkout`: the cache point falls back to the archive, so reconciliation restarts from it. */
  function Checkout(s: Store): (r: Store)
    ensures r.cached == s.archived
    ensures r.(cached := s.cached) == s
  {
    s.(cached := s.archived)
  }

  /** Caching then rolling back leaves staging where it was; rolling back then caching leaves the cache where it was. */
  lemma CacheRollbackRoundTrip(s: Store)
    ensures Rollback(Cache(s)).staged == s.staged
    ensures Cache(Rollback(s)).cached == s.cached
    ensures Cache(Rollback(s)) == s.(staged := s.cached)
  {
  }

  // ---------------------------------------------------------------------
  // Stage, write, commit, reconcile, release
  // ---------------------------------------------------------------------

  /**
   `stage(action)`: a forked store first takes in its parent's current head;
   then the action, if any, is dispatched over the staged layer. Only
   `staged` changes.
   */
  function Stage(s: Store, parentHead: State, action: Option<Act>): (r: Store)
    ensures r.(staged := s.staged) == s
    ensures !s.forked && action.None? ==> r == s
    ensures s.forked && action.None? ==> r.staged == Merge(s.staged, parentHead)
    ensures s.forked && action.Some? ==>
      forall k :: k in parentHead && k !in KeysOf(Register(s.realm, action.value.tag)) ==> Get(r.staged, k) == parentHead[k]
    // the action is dispatched over the staging base: only its handlers' keys change ...
    ensures action.Some? ==> var hs := Register(s.realm, action.value.tag);
      r.staged.Keys == StageBase(s, parentHead).Keys + KeysOf(hs) &&
      forall k :: k !in KeysOf(hs) ==> Get(r.staged, k) == Get(StageBase(s, parentHead), k)
    // ... and, keys registered once each, each becomes its domain's staged handler result
    ensures action.Some? ==> var hs := Register(s.realm, action.value.tag);
      var base := StageBase(s, parentHead);
      DistinctKeys(hs) ==> forall i :: 0 <= i < |hs| ==>
        Get(r.staged, hs[i].key) == hs[i].domain.stage(Get(base, hs[i].key), hs[i].handler(Get(base, hs[i].key), action.value.payload))
  {
    var base := StageBase(s, parentHead);
    match action
    case None => s.(staged := base)
    case Some(act) =>
      var hs := Register(s.realm, act.tag);
      if DistinctKeys(hs) then
        DispatchDistinctKeys(hs, base, act.payload);
        s.(staged := DispatchIn(s.realm, base, act))
      else
        s.(staged := DispatchIn(s.realm, base, act))
  }

  /** What staging starts from: the staged layer, with a fork's parent head merged over it. */
  function StageBase(s: Store, parentHead: State): State {
    if s.forked then Merge(s.staged, parentHead) else s.staged
  }

  /**
   `write(state, key, domain)`: a key the published state does not hold yet
   is always committed; otherwise it is committed only if `shouldCommit`,
   asked about the key's CACHED value and its staged value, says so, and
   keeps its published value when not.
   */
  function Write(s: Store, acc: State, key: Key, d: Domain): (r: State)
    ensures r.Keys == acc.Keys + {key}
    ensures forall k :: k != key ==> Get(r, k) == Get(acc, k)
    ensures key !in s.state ==> Get(r, key) == d.commit(Get(acc, key), acc)
    ensures key in s.state ==>
      Get(r, key) == if d.shouldCommit(Get(s.cached, key), Get(acc, key)) then d.commit(Get(acc, key), acc) else s.state[key]
  {
    var last := Get(s.cached, key);
    var next := Get(acc, key);
    if key !in s.state || d.shouldCommit(last, next) then Put(acc, key, d.commit(next, acc))
    else Put(acc, key, Get(s.state, key))
  }

  /** The realm's reduce: write every registered domain's key, in registration order. */
  function Reduce(s: Store, regs: Realm, acc: State): (r: State)
    ensures forall k :: (forall i :: 0 <= i < |regs| ==> regs[i].key != k) ==> Get(r, k) == Get(acc, k)
    decreases |regs|
  {
    if regs == [] then acc
    else
      assert forall i :: 0 < i < |regs| ==> regs[i] == regs[1..][i - 1];
      Reduce(s, regs[1..], Write(s, acc, regs[0].key, regs[0].domain))
  }

  /** `commit`: the head is the staged layer passed through every domain's commit policy. */
  function Commit(s: Store): (r: Store)
    ensures r.(head := s.head) == s
    ensures forall k :: (forall i :: 0 <= i < |s.realm| ==> s.realm[i].key != k) ==> Get(r.head, k) == Get(s.staged, k)
  {
    s.(head := Reduce(s, s.realm, s.staged))
  }

  /** `reconcile(action)`: stage, then commit. */
  function Reconcile(s: Store, parentHead: State, action: Option<Act>): (r: Store)
    ensures r.(staged := s.staged, head := s.head) == s
    ensures r.staged == Stage(s, parentHead, action).staged
    ensures forall k :: (forall i :: 0 <= i < |s.realm| ==> s.realm[i].key != k) ==> Get(r.head, k) == Get(r.staged, k)
  {
    Commit(Stage(s, parentHead, action))
  }

  /**
   `release`: a pure store whose head is shallow-equal to its published
   state changes nothing and emits nothing; otherwise the head is published
   and exactly one `change` is emitted with it.
   */
  function Release(s: Store): (r: Released)
    ensures r.events == [] <==> s.pure && ShallowEqual(s.head, s.state)
    ensures r.events == [] ==> r.store == s
    ensures r.events != [] ==> r.store == s.(state := s.head) && r.events == [Changed(s.head)]
  {
    if s.pure && ShallowEqual(s.head, s.state) then Released(s, [])
    else Released(s.(state := s.head), [Changed(s.head)])
  }

  /** A pure store released twice emits nothing the second time and stays put. */
  lemma ReleaseIsIdempotentWhenPure(s: Store)
    requires s.pure
    ensures var once := Release(s);
      Release(once.store) == Released(once.store, [])
  {
    ShallowEqualIsEquality(Release(s).store.head, Release(s).store.state);
  }

  /** An impure store publishes and emits on every release, even when nothing changed. */
  lemma ImpureStoreAlwaysEmits(s: Store)
    requires !s.pure
    ensures Release(s).events == [Changed(s.head)]
    ensures Release(Release(s).store).events == [Changed(s.head)]
  {
  }

  // ---------------------------------------------------------------------
  // Commit policy, per key
  // ---------------------------------------------------------------------

  predicate DistinctRegistrations(realm: Realm) {
    forall i, j :: 0 <= i < j < |realm| ==> realm[i].key != realm[j].key
  }

  lemma {:induction false} ReduceAppend(s: Store, a: Realm, b: Realm, acc: State)
    ensures Reduce(s, a + b, acc) == Reduce(s, b, Reduce(s, a, acc))
    decreases |a|
  {
    if a == [] {
      assert a + b == b;
    } else {
      assert (a + b)[1..] == a[1..] + b;
      assert (a + b)[0] == a[0];
      ReduceAppend(s, a[1..], b, Write(s, acc, a[0].key, a[0].domain));
    }
  }

  /** With keys registered once each, the head's value at a registered key is what that key's own write produced. */
  lemma CommitAtKey(s: Store, i: nat)
    requires DistinctRegistrations(s.realm) && i < |s.realm|
    ensures var reg := s.realm[i];
      var before := Reduce(s, s.realm[..i], s.staged);
      Get(before, reg.key) == Get(s.staged, reg.key) &&
      Get(Commit(s).head, reg.key) == Get(Write(s, before, reg.key, reg.domain), reg.key)
  {
    var realm := s.realm;
    var reg := realm[i];
    var front := realm[..i];
    var back := realm[i + 1..];
    assert realm == front + ([reg] + back);
    ReduceAppend(s, front, [reg] + back, s.staged);
    var before := Reduce(s, front, s.staged);
    assert forall j :: 0 <= j < |front| ==> front[j].key != reg.key;
    assert ([reg] + back)[1..] == back;
    var written := Write(s, before, reg.key, reg.domain);
    assert Reduce(s, [reg] + back, before) == Reduce(s, back, written);
    forall j | 0 <= j < |back| ensures back[j].key != reg.key {
      assert back[j] == realm[i + 1 + j];
    }
  }

  /**
   The commit policy, stated per registered key (keys registered once each):
   a key the published state lacks is always committed; a published key whose
   domain declines (`shouldCommit(cached, staged)` false) keeps its published
   value; otherwise the head holds the domain's committed staged value.
   */
  lemma CommitPerKey(s: Store, i: nat)
    requires DistinctRegistrations(s.realm) && i < |s.realm|
    ensures var reg := s.realm[i];
      var head := Commit(s).head;
      var next := Get(s.staged, reg.key);
      var before := Reduce(s, s.realm[..i], s.staged);
      (reg.key !in s.state ==> Get(head, reg.key) == reg.domain.commit(next, before)) &&
      (reg.key in s.state && !reg.domain.shouldCommit(Get(s.cached, reg.key), next) ==> Get(head, reg.key) == s.state[reg.key]) &&
      (reg.key in s.state && reg.domain.shouldCommit(Get(s.cached, reg.key), next) ==> Get(head, reg.key) == reg.domain.commit(next, before))
  {
    CommitAtKey(s, i);
  }

  /** A domain whose `shouldCommit` and `commit` are the defaults: always commit, unchanged. */
  ghost predicate DefaultPolicy(d: Domain) {
    (forall last, next :: d.shouldCommit(last, next)) && (forall next, st :: d.commit(next, st) == next)
  }

  /** When every domain keeps the default policy and its key is staged, the head is exactly the staged layer. */
  lemma {:induction false} DefaultPolicyCommitsStaged(s: Store, regs: Realm, acc: State)
    requires forall i :: 0 <= i < |regs| ==> DefaultPolicy(regs[i].domain) && regs[i].key in acc
    ensures Reduce(s, regs, acc) == acc
    decreases |regs|
  {
    if regs != [] {
      var w := Write(s, acc, regs[0].key, regs[0].domain);
      assert w == acc;
      assert forall i :: 0 <= i < |regs[1..]| ==> regs[1..][i] == regs[i + 1];
      DefaultPolicyCommitsStaged(s, regs[1..], acc);
    }
  }

  // ---------------------------------------------------------------------
  // Rebase, reset, patch, serialization
  // ---------------------------------------------------------------------

  /**
   `rebase`: back-fill the archive and the cache with the initial state
   (values already there win), roll back, reconcile without an action, and
   release.
   */
  function Rebase(s: Store, parentHead: State): (r: Released)
    ensures var init := GetInitialState(s);
      r.store.archived == Merge(init, s.archived) && r.store.cached == Merge(init, s.cached)
    ensures !s.forked ==> r.store.staged == r.store.cached
    ensures s.forked ==> r.store.staged == Merge(r.store.cached, parentHead)
    ensures r.store.realm == s.realm && r.store.pure == s.pure && r.store.history == s.history
    ensures r.events == [] <==> s.pure && ShallowEqual(r.store.head, s.state)
    ensures r.events == [] ==> r.store.state == s.state
    ensures r.events != [] ==> r.store.state == r.store.head && r.events == [Changed(r.store.head)]
    ensures forall k :: (forall i :: 0 <= i < |s.realm| ==> s.realm[i].key != k) ==> Get(r.store.head, k) == Get(r.store.staged, k)
  {
    var init := GetInitialState(s);
    var filled := s.(archived := Merge(init, s.archived), cached := Merge(init, s.cached));
    Release(Reconcile(Rollback(filled), parentHead, None))
  }

  /** After a rebase, a key already archived or cached keeps its value; a key only the initial state has gets it. */
  lemma RebaseKeepsExistingValues(s: Store, parentHead: State, k: Key)
    ensures var r := Rebase(s, parentHead).store;
      var init := GetInitialState(s);
      (k in s.archived ==> r.archived[k] == s.archived[k]) &&
      (k in s.cached ==> r.cached[k] == s.cached[k]) &&
      (k !in s.archived && k in init ==> r.archived[k] == init[k]) &&
      (k !in s.cached && k in init ==> r.cached[k] == init[k])
  {
  }

  /** `addDomain(key, config)`: register the ensured domain, then rebase so its initial value appears at once. */
  function AddDomain(s: Store, parentHead: State, key: Key, c: Config): (r: Released)
    ensures r.store.realm == s.realm + [Registration(key, Ensure(c))]
    ensures r.store.pure == s.pure && r.store.history == s.history && r.store.forked == s.forked
    ensures var init := GetInitialState(s.(realm := r.store.realm));
      r.store.archived == Merge(init, s.archived) && r.store.cached == Merge(init, s.cached)
    ensures !s.forked ==> r.store.staged == r.store.cached
    ensures s.forked ==> r.store.staged == Merge(r.store.cached, parentHead)
    ensures forall k :: (forall i :: 0 <= i < |r.store.realm| ==> r.store.realm[i].key != k) ==> Get(r.store.head, k) == Get(r.store.staged, k)
    ensures r.events == [] <==> s.pure && ShallowEqual(r.store.head, s.state)
    ensures r.events == [] ==> r.store.state == s.state
    ensures r.events != [] ==> r.store.state == r.store.head && r.events == [Changed(r.store.head)]
  {
    Rebase(s.(realm := Add(s.realm, key, c)), parentHead)
  }

  /** `deserialize(payload)`: null or undefined gives an empty state; otherwise each domain deserializes its key. */
  function Deserialize(s: Store, payload: Option<State>): (r: State)
    ensures payload.None? ==> r == map[]
    ensures payload.Some? ==> r.Keys == payload.value.Keys + KeysOf(Register(s.realm, Lifecycle(DeserializeHook)))
    ensures payload.Some? ==> forall k :: k !in KeysOf(Register(s.realm, Lifecycle(DeserializeHook))) ==>
      Get(r, k) == Get(payload.value, k)
    // keys registered once each: each holds its domain's staged `deserialize` of the payload's value
    ensures payload.Some? ==> var hs := Register(s.realm, Lifecycle(DeserializeHook));
      var p := payload.value;
      DistinctKeys(hs) ==> forall i :: 0 <= i < |hs| ==>
        Get(r, hs[i].key) == hs[i].domain.stage(Get(p, hs[i].key), hs[i].handler(Get(p, hs[i].key), Data(p)))
  {
    match payload
    case None => map[]
    case Some(p) =>
      var hs := Register(s.realm, Lifecycle(DeserializeHook));
      if DistinctKeys(hs) then
        DispatchDistinctKeys(hs, p, Data(p));
        DispatchIn(s.realm, p, Act(Lifecycle(DeserializeHook), Data(p)))
      else
        DispatchIn(s.realm, p, Act(Lifecycle(DeserializeHook), Data(p)))
  }

  /** `serialize`: each domain serializes its key of the staged layer. */
  function Serialize(s: Store): (r: State)
    ensures forall k :: k !in KeysOf(Register(s.realm, Lifecycle(SerializeHook))) ==> Get(r, k) == Get(s.staged, k)
    // keys registered once each: each holds its domain's staged `serialize` of the staged value
    ensures var hs := Register(s.realm, Lifecycle(SerializeHook));
      DistinctKeys(hs) ==> forall i :: 0 <= i < |hs| ==>
        Get(r, hs[i].key) == hs[i].domain.stage(Get(s.staged, hs[i].key), hs[i].handler(Get(s.staged, hs[i].key), Val(Null)))
  {
    var hs := Register(s.realm, Lifecycle(SerializeHook));
    if DistinctKeys(hs) then
      DispatchDistinctKeys(hs, s.staged, Val(Null));
      DispatchIn(s.realm, s.staged, Act(Lifecycle(SerializeHook), Val(Null)))
    else
      DispatchIn(s.realm, s.staged, Act(Lifecycle(SerializeHook), Val(Null)))
  }

  /** The internal behaviours `reset` and `patch` push through the history. */
  datatype MetaKind = WillReset | WillPatch

  /** A push of one of those behaviours with its `data` (the `owner` field is this store). */
  datatype Push = Push(kind: MetaKind, data: Option<State>)

  /**
   `reset(data, deserialize)`: push a reset whose data is the initial state
   overlaid with the given data (deserialized first when asked); the given
   data wins on shared keys, and absent data leaves the initial state.
   */
  function Reset(s: Store, data: Option<State>, deserialize: bool): (r: Push)
    ensures r.kind == WillReset && r.data.Some?
    ensures var given := if deserialize then Deserialize(s, data) else data.GetOr(map[]);
      var init := GetInitialState(s);
      r.data.value.Keys == init.Keys + given.Keys &&
      (forall k :: k in given ==> r.data.value[k] == given[k]) &&
      (forall k :: k in init && k !in given ==> r.data.value[k] == init[k])
  {
    var given := if deserialize then Deserialize(s, data) else data.GetOr(map[]);
    Push(WillReset, Some(Merge(GetInitialState(s), given)))
  }

  /** `patch(data, deserialize)`: push a patch with the data as given, or deserialized when asked. */
  function Patch(s: Store, data: Option<State>, deserialize: bool): (r: Push)
    ensures r.kind == WillPatch
    ensures !deserialize ==> r.data == data
    ensures deserialize && data.None? ==> r.data == Some(map[])
    ensures deserialize ==> r.data == Some(Deserialize(s, data))
    ensures deserialize && data.Some? ==> var deser := KeysOf(Register(s.realm, Lifecycle(DeserializeHook)));
      r.data.Some? && r.data.value.Keys == data.value.Keys + deser &&
      forall k :: k !in deser ==> Get(r.data.value, k) == Get(data.value, k)
  {
    Push(WillPatch, if deserialize then Some(Deserialize(s, data)) else data)
  }

  // ---------------------------------------------------------------------
  // The pipeline end to end
  // ---------------------------------------------------------------------

  /**
   Reconcile commits what it staged, key by key (keys registered once each):
   a key the published state lacks is always committed, a declined published
   key keeps its published value, and otherwise the domain's committed value
   is taken.
   */
  lemma ReconcileCommitsPerKey(s: Store, parentHead: State, action: Option<Act>, i: nat)
    requires DistinctRegistrations(s.realm) && i < |s.realm|
    ensures var st := Stage(s, parentHead, action);
      var r := Reconcile(s, parentHead, action);
      var reg := s.realm[i];
      var next := Get(r.staged, reg.key);
      var before := Reduce(st, s.realm[..i], st.staged);
      (reg.key !in s.state ==> Get(r.head, reg.key) == reg.domain.commit(next, before)) &&
      (reg.key in s.state && !reg.domain.shouldCommit(Get(s.cached, reg.key), next) ==> Get(r.head, reg.key) == s.state[reg.key]) &&
      (reg.key in s.state && reg.domain.shouldCommit(Get(s.cached, reg.key), next) ==> Get(r.head, reg.key) == reg.domain.commit(next, before))
  {
    CommitPerKey(Stage(s, parentHead, action), i);
  }

  /**
   Rebase commits through each domain's policy, key by key (keys registered
   once each): after back-filling and rolling back, a key never published
   is always committed, a published key whose domain declines keeps its
   published value, and otherwise the domain's committed value is taken.
   */
  lemma RebaseCommitsPerKey(s: Store, parentHead: State, i: nat)
    requires DistinctRegistrations(s.realm) && i < |s.realm|
    ensures var init := GetInitialState(s);
      var rolled := Rollback(s.(archived := Merge(init, s.archived), cached := Merge(init, s.cached)));
      var st := Stage(rolled, parentHead, None);
      var r := Rebase(s, parentHead).store;
      var reg := s.realm[i];
      var next := Get(r.staged, reg.key);
      var before := Reduce(st, s.realm[..i], st.staged);
      (reg.key !in s.state ==> Get(r.head, reg.key) == reg.domain.commit(next, before)) &&
      (reg.key in s.state && !reg.domain.shouldCommit(Get(r.cached, reg.key), next) ==> Get(r.head, reg.key) == s.state[reg.key]) &&
      (reg.key in s.state && reg.domain.shouldCommit(Get(r.cached, reg.key), next) ==> Get(r.head, reg.key) == reg.domain.commit(next, before))
  {
    var init := GetInitialState(s);
    var rolled := Rollback(s.(archived := Merge(init, s.archived), cached := Merge(init, s.cached)));
    ReconcileCommitsPerKey(rolled, parentHead, None, i);
  }

  /** A domain that never agrees to commit keeps its published value through a rebase, whatever the initial state says. */
  lemma RebaseKeepsDeclinedValue(s: Store, parentHead: State, i: nat)
    requires DistinctRegistrations(s.realm) && i < |s.realm|
    requires s.realm[i].key in s.state
    requires forall last, next :: !s.realm[i].domain.shouldCommit(last, next)
    ensures Get(Rebase(s, parentHead).store.head, s.realm[i].key) == s.state[s.realm[i].key]
  {
    RebaseCommitsPerKey(s, parentHead, i);
  }

  /**
   `addDomain` commits every key of the enlarged realm through its domain's
   policy (keys registered once each): a key never published is always
   committed, a declined published key keeps its published value, and
   otherwise the domain's committed value is taken.
   */
  lemma AddDomainCommitsPerKey(s: Store, parentHead: State, key: Key, c: Config, i: nat)
    requires DistinctRegistrations(s.realm + [Registration(key, Ensure(c))]) && i <= |s.realm|
    ensures var grown := s.(realm := s.realm + [Registration(key, Ensure(c))]);
      var init := GetInitialState(grown);
      var rolled := Rollback(grown.(archived := Merge(init, s.archived), cached := Merge(init, s.cached)));
      var st := Stage(rolled, parentHead, None);
      var r := AddDomain(s, parentHead, key, c).store;
      var reg := grown.realm[i];
      var next := Get(r.staged, reg.key);
      var before := Reduce(st, grown.realm[..i], st.staged);
      (reg.key !in s.state ==> Get(r.head, reg.key) == reg.domain.commit(next, before)) &&
      (reg.key in s.state && !reg.domain.shouldCommit(Get(r.cached, reg.key), next) ==> Get(r.head, reg.key) == s.state[reg.key]) &&
      (reg.key in s.state && reg.domain.shouldCommit(Get(r.cached, reg.key), next) ==> Get(r.head, reg.key) == reg.domain.commit(next, before))
  {
    var grown := s.(realm := s.realm + [Registration(key, Ensure(c))]);
    assert AddDomain(s, parentHead, key, c) == Rebase(grown, parentHead);
    RebaseCommitsPerKey(grown, parentHead, i);
  }

  /** With the default commit policy everywhere and every registered key staged, reconcile's head is exactly what it staged. */
  lemma ReconcileWithDefaultPolicy(s: Store, parentHead: State, action: Option<Act>)
    requires var st := Stage(s, parentHead, action).staged;
      forall i :: 0 <= i < |s.realm| ==> DefaultPolicy(s.realm[i].domain) && s.realm[i].key in st
    ensures Reconcile(s, parentHead, action).head == Reconcile(s, parentHead, action).staged
  {
    var st := Stage(s, parentHead, action);
    DefaultPolicyCommitsStaged(st, st.realm, st.staged);
  }

  /** The handlers registered for the lifecycle identities of a realm, with the new registration's handler last. */
  lemma RegisterAddedLast(realm: Realm, reg: Registration, t: Tag)
    requires HandlerFor(reg.domain, t).Some?
    requires forall i :: 0 <= i < |realm| ==> realm[i].key != reg.key
    ensures Register(realm + [reg], t) == Register(realm, t) + [Entry(reg.key, reg.domain, HandlerFor(reg.domain, t).value)]
    ensures reg.key !in KeysOf(Register(realm, t))
  {
    RegisterAppend(realm, [reg], t);
    assert [reg][1..] == [];
    var front := Register(realm, t);
    forall j | 0 <= j < |front| ensures front[j].key != reg.key {
      assert front[j] in front;
      var other :| other in realm && other.key == front[j].key && other.domain == front[j].domain;
      var n :| 0 <= n < |realm| && realm[n] == other;
    }
  }

  /**
   A domain added to a root store under a fresh key publishes its initial
   value at once, with one `change` event: when its `getInitialState`
   answers `v` and its `stage` and `commit` are the defaults, `v` is
   published at its key as soon as `addDomain` returns.
   */
  lemma AddedDomainPublishesInitialValue(s: Store, parentHead: State, key: Key, c: Config, v: Value)
    requires !s.forked && DistinctRegistrations(s.realm)
    requires forall i :: 0 <= i < |s.realm| ==> s.realm[i].key != key
    requires key !in s.archived && key !in s.cached && key !in s.state
    requires c.stage.None? && c.commit.None?
    requires c.lifecycle(InitialStateHook).Some? && c.lifecycle(InitialStateHook).value(Undefined, Val(Null)) == v
    requires v != Undefined
    ensures var r := AddDomain(s, parentHead, key, c);
      key in r.store.state && r.store.state[key] == v && r.events == [Changed(r.store.head)]
  {
    var s1 := s.(realm := s.realm + [Registration(key, Ensure(c))]);
    var init := GetInitialState(s1);
    var filled := s1.(archived := Merge(init, s.archived), cached := Merge(init, s.cached));
    var head := Reconcile(Rollback(filled), parentHead, None).head;
    NewKeyCommitsInitialValue(s, parentHead, key, c, v);
    assert AddDomain(s, parentHead, key, c) == Release(Reconcile(Rollback(filled), parentHead, None));
    // The head now differs from the published state, so it is released.
    assert key in head && head != s.state;
    ShallowEqualIsEquality(head, s.state);
  }

  /** The rebase behind `addDomain` commits the new domain's initial value at its fresh key. */
  lemma NewKeyCommitsInitialValue(s: Store, parentHead: State, key: Key, c: Config, v: Value)
    requires !s.forked && DistinctRegistrations(s.realm)
    requires forall i :: 0 <= i < |s.realm| ==> s.realm[i].key != key
    requires key !in s.archived && key !in s.cached && key !in s.state
    requires c.stage.None? && c.commit.None?
    requires c.lifecycle(InitialStateHook).Some? && c.lifecycle(InitialStateHook).value(Undefined, Val(Null)) == v
    ensures var s1 := s.(realm := s.realm + [Registration(key, Ensure(c))]);
      var init := GetInitialState(s1);
      var filled := s1.(archived := Merge(init, s.archived), cached := Merge(init, s.cached));
      Get(Reconcile(Rollback(filled), parentHead, None).head, key) == v
  {
    var reg := Registration(key, Ensure(c));
    var realm := s.realm + [reg];
    var s1 := s.(realm := realm);
    var init := GetInitialState(s1);
    InitialStateOfAddedDomain(s.realm, key, c, v);
    assert Get(init, key) == v;

    // Back-filled into the cache, rolled back into staging; no action is staged.
    var filled := s1.(archived := Merge(init, s.archived), cached := Merge(init, s.cached));
    var st := Stage(Rollback(filled), parentHead, None);
    assert Get(st.staged, key) == v;

    // The commit writes the new key for the first time, through the default commit.
    AppendFreshKeyKeepsDistinct(s.realm, reg);
    assert realm[|s.realm|] == reg;
    CommitAtKey(st, |s.realm|);
    assert Get(Commit(st).head, key) == v;
  }

  /** The initial state of a realm grown by a fresh registration binds the new key to its `getInitialState` answer. */
  lemma {:induction false} InitialStateOfAddedDomain(realm: Realm, key: Key, c: Config, v: Value)
    requires forall i :: 0 <= i < |realm| ==> realm[i].key != key
    requires c.lifecycle(InitialStateHook).Some? && c.lifecycle(InitialStateHook).value(Undefined, Val(Null)) == v
    requires c.stage.None?
    ensures var hs := Register(realm + [Registration(key, Ensure(c))], Lifecycle(InitialStateHook));
      Get(Dispatch(hs, map[], Val(Null)), key) == v
  {
    var d := Ensure(c);
    var reg := Registration(key, d);
    var t := Lifecycle(InitialStateHook);
    var h := c.lifecycle(InitialStateHook).value;
    assert HandlerFor(d, t) == Some(h);
    // Earlier handlers never write the new key.
    RegisterAddedLast(realm, reg, t);
    var front := Register(realm, t);
    var e := Entry(key, d, h);
    DispatchAppend(front, [e], map[], Val(Null));
    var mid := Dispatch(front, map[], Val(Null));
    assert Get(mid, key) == Undefined;
    assert [e][1..] == [];
    assert Dispatch([e], mid, Val(Null)) == Step(e, mid, Val(Null));
  }

  /** Appending a registration under a fresh key keeps a realm's keys distinct. */
  lemma AppendFreshKeyKeepsDistinct(realm: Realm, reg: Registration)
    requires DistinctRegistrations(realm)
    requires forall i :: 0 <= i < |realm| ==> realm[i].key != reg.key
    ensures DistinctRegistrations(realm + [reg])
  {
    var grown := realm + [reg];
    forall i, j | 0 <= i < j < |grown| ensures grown[i].key != grown[j].key {
      if j == |realm| {
        assert grown[i] == realm[i];
      } else {
        assert grown[i] == realm[i] && grown[j] == realm[j];
      }
    }
  }

  // ---------------------------------------------------------------------
  // Serialization, reset, fork and the layer copies
  // ---------------------------------------------------------------------

  /** A domain whose lifecycle method for `hook`, once staged, hands the sub-state back unchanged. */
  ghost predicate IdentityHook(d: Domain, hook: Lifecycle) {
    d.lifecycle(hook).Some? ==> forall x, p :: d.stage(x, d.lifecycle(hook).value(x, p)) == x
  }

  /** Handlers that each leave their key's value as they found it leave every key's value as it was. */
  lemma {:induction false} DispatchOfIdentityHandlers(hs: seq<Entry>, state: State, p: Payload)
    requires forall i, x :: 0 <= i < |hs| ==> hs[i].domain.stage(x, hs[i].handler(x, p)) == x
    ensures forall k :: Get(Dispatch(hs, state, p), k) == Get(state, k)
    decreases |hs|
  {
    if hs != [] {
      var next := Step(hs[0], state, p);
      assert hs[0].domain.stage(Get(state, hs[0].key), hs[0].handler(Get(state, hs[0].key), p)) == Get(state, hs[0].key);
      assert forall k :: Get(next, k) == Get(state, k);
      assert forall i :: 0 <= i < |hs[1..]| ==> hs[1..][i] == hs[i + 1];
      DispatchOfIdentityHandlers(hs[1..], next, p);
    }
  }

  /** The registered handlers for `hook` of a realm whose domains all have identity `hook` methods are identities. */
  lemma RegisteredIdentityHooks(realm: Realm, hook: Lifecycle, p: Payload)
    requires forall reg :: reg in realm ==> IdentityHook(reg.domain, hook)
    ensures var hs := Register(realm, Lifecycle(hook));
      forall i, x :: 0 <= i < |hs| ==> hs[i].domain.stage(x, hs[i].handler(x, p)) == x
  {
    var hs := Register(realm, Lifecycle(hook));
    forall i, x | 0 <= i < |hs| ensures hs[i].domain.stage(x, hs[i].handler(x, p)) == x {
      assert hs[i] in hs;
      var reg :| reg in realm && reg.key == hs[i].key && reg.domain == hs[i].domain;
      assert IdentityHook(reg.domain, hook);
      assert HandlerFor(hs[i].domain, Lifecycle(hook)) == Some(hs[i].handler);
    }
  }

  /** With serialize methods that give the sub-state back, serializing reads the staged layer unchanged, key by key. */
  lemma SerializeWithIdentityHooks(s: Store)
    requires forall reg :: reg in s.realm ==> IdentityHook(reg.domain, SerializeHook)
    ensures forall k :: Get(Serialize(s), k) == Get(s.staged, k)
  {
    var hs := Register(s.realm, Lifecycle(SerializeHook));
    RegisteredIdentityHooks(s.realm, SerializeHook, Val(Null));
    DispatchOfIdentityHandlers(hs, s.staged, Val(Null));
    assert Serialize(s) == Dispatch(hs, s.staged, Val(Null));
  }

  /** With deserialize methods that give the sub-state back, deserializing (and patching with deserialized data) gives the data back, key by key. */
  lemma DeserializeWithIdentityHooks(s: Store, p: State)
    requires forall reg :: reg in s.realm ==> IdentityHook(reg.domain, DeserializeHook)
    ensures forall k :: Get(Deserialize(s, Some(p)), k) == Get(p, k)
    ensures forall k :: Get(Patch(s, Some(p), true).data.value, k) == Get(p, k)
  {
    var hs := Register(s.realm, Lifecycle(DeserializeHook));
    RegisteredIdentityHooks(s.realm, DeserializeHook, Data(p));
    DispatchOfIdentityHandlers(hs, p, Data(p));
    assert Deserialize(s, Some(p)) == Dispatch(hs, p, Data(p));
    assert Patch(s, Some(p), true).data == Some(Deserialize(s, Some(p)));
  }

  /** With identity serialize and deserialize methods, deserializing what was serialized gives back the staged layer, key by key. */
  lemma SerializationWithIdentityHooks(s: Store)
    requires forall reg :: reg in s.realm ==> IdentityHook(reg.domain, SerializeHook) && IdentityHook(reg.domain, DeserializeHook)
    ensures forall k :: Get(Deserialize(s, Some(Serialize(s))), k) == Get(s.staged, k)
  {
    var q := Serialize(s);
    SerializeWithIdentityHooks(s);
    DeserializeWithIdentityHooks(s, q);
  }

  /** A reset with absent data, deserialized or not, or with empty data and no deserialization, pushes exactly the initial state. */
  lemma ResetWithoutDataIsInitialState(s: Store, deserialize: bool)
    ensures Reset(s, None, deserialize).data == Some(GetInitialState(s))
    ensures Reset(s, Some(map[]), false).data == Some(GetInitialState(s))
  {
    var init := GetInitialState(s);
    assert Merge(init, map[]) == init;
  }

  /** Archiving then checking out leaves the cache point where it was: checkout restores what was archived. */
  lemma CheckoutRestoresArchive(s: Store)
    ensures Checkout(Archive(s)) == Archive(s)
    ensures Checkout(Archive(s)).cached == s.cached
  {
  }

  /**
   A fork of a store whose published state is its head, with no domains of
   its own, reconciles to its parent's head and releases nothing when pure.
   */
  lemma ForkFollowsParentHead(parent: Store)
    requires parent.state == parent.head
    ensures var child := Reconcile(Fork(parent), parent.head, None);
      child.staged == parent.head && child.head == parent.head &&
      (parent.pure ==> Release(child).events == [])
  {
    var child := Reconcile(Fork(parent), parent.head, None);
    assert Merge(parent.head, parent.head) == parent.head;
    ShallowEqualIsEquality(child.head, child.state);
  }

  /** A new store has no initial state; rebasing it leaves every layer empty and emits only if it is impure. */
  lemma NewStoreRebasesToEmpty(history: nat, pure: bool, parentHead: State)
    ensures var r := Rebase(New(history, pure), parentHead);
      r.store.archived == r.store.cached == r.store.staged == r.store.head == r.store.state == map[] &&
      (r.events == [] <==> pure)
  {
    var s := New(history, pure);
    assert GetInitialState(s) == map[];
    assert Merge(map[], map[]) == map[];
    ShallowEqualIsEquality(map[], map[]);
  }
}

=== FILE: values.dfy ===
/**
 Values shared by every part of the model: the JavaScript values the state
 container passes around, the keyed state objects its layers hold, and the
 few object helpers (`merge`, `shallowEqual`, `update.get`/`update.set`) that
 the store relies on.
 */
module Values {

  datatype Option<+T> = None | Some(value: T) {
    function GetOr(default: T): T {
      match this
      case Some(v) => v
      case None => default
    }
  }

  /**
   A JavaScript value as far as the container distinguishes values. Objects
   and functions are identified by reference (`id`); `callableThen` records
   whether their `then` property holds a function, the only property of an
   arbitrary value the container ever inspects. Numbers are integers here.
   */
  datatype Value =
    | Undefined
    | Null
    | Bool(b: bool)
    | Num(n: int)
    | Str(s: string)
    | Obj(id: nat, callableThen: bool)
    | Func(id: nat, callableThen: bool)

  /** The result of JavaScript's `typeof`. */
  datatype TypeTag = TUndefined | TBoolean | TNumber | TString | TObject | TFunction

  function TypeOf(v: Value): TypeTag {
    match v
    case Undefined => TUndefined
    case Null => TObject  // `typeof null` is "object"
    case Bool(_) => TBoolean
    case Num(_) => TNumber
    case Str(_) => TString
    case Obj(_, _) => TObject
    case Func(_, _) => TFunction
  }

  /** JavaScript truthiness (`!!v`). */
  predicate Truthy(v: Value) {
    match v
    case Undefined => false
    case Null => false
    case Bool(b) => b
    case Num(n) => n != 0
    case Str(s) => s != ""
    case Obj(_, _) => true
    case Func(_, _) => true
  }

  /** `v == undefined` under loose equality: true for exactly null and undefined. */
  predicate IsNullish(v: Value) {
    v.Undefined? || v.Null?
  }

  /** `typeof v.then === 'function'`; primitives have no callable `then`. */
  predicate HasCallableThen(v: Value) {
    (v.Obj? || v.Func?) && v.callableThen
  }

  /** A key path into state. A top-level domain key `"count"` is `["count"]`. */
  type Key = seq<string>

  /**
   A state object: own properties keyed by path. Paths are treated as atomic
   keys, so `update.get`/`update.set` are map lookup and map update.
   */
  type State = map<Key, Value>

  /** The argument handed to a domain handler alongside its sub-state. */
  datatype Payload = Val(v: Value) | Data(s: State)

  /** `update.get`: a missing property reads as undefined. */
  function Get(s: State, k: Key): Value {
    if k in s then s[k] else Undefined
  }

  /** `update.set`: a copy of `s` with `k` bound to `v`. */
  function Put(s: State, k: Key, v: Value): (r: State)
    ensures r.Keys == s.Keys + {k}
    ensures Get(r, k) == v
    ensures forall j :: j != k ==> Get(r, j) == Get(s, j)
  {
    s[k := v]
  }

  /** `merge(a, b)`: union of the two objects; on shared keys `b` wins. */
  function Merge(a: State, b: State): (r: State)
    ensures r.Keys == a.Keys + b.Keys
    ensures forall k :: k in b ==> r[k] == b[k]
    ensures forall k :: k in a && k !in b ==> r[k] == a[k]
  {
    a + b
  }

  /** `shallowEqual(a, b)`: the same own keys holding identical (`===`) values. */
  predicate ShallowEqual(a: State, b: State) {
    a.Keys == b.Keys && forall k :: k in a ==> a[k] == b[k]
  }

  /** Shallow equality of two state objects is exactly equality of their key/value maps. */
  lemma ShallowEqualIsEquality(a: State, b: State)
    ensures ShallowEqual(a, b) <==> a == b
  {
    if ShallowEqual(a, b) {
      assert forall k :: k in a <==> k in b;
    }
  }
}
